=== FILE: README.md ===
# Camera calibration session — a Dafny model

This project models the bookkeeping core of a small Qt desktop application for
camera calibration. The user drops photographs of a calibration target
(or grabs live frames). Each photograph becomes a thumbnail item that records
the detected pattern points and the image shape. A *calibrate* request gathers
the items that carry points into an aligned dataset. It refuses an empty
dataset and one with mixed image shapes. Otherwise it hands the dataset to
OpenCV's standard or fisheye solver and shows a summary of the camera matrix
and distortion coefficients. A save writes a record with the keys `K`, `D`
and `fisheye`.

Around that session the model also covers:

- the flow layout that places the thumbnails;
- the calibrate dock, which picks the camera model and formats the summary;
- the camera dock and the probe that lists camera devices.

Everything is immutable datatypes and pure functions. The methods mirror the
source's loops and are proved equal to a functional reference.

| file | module | source |
|---|---|---|
| `base.dfy` | `Base` | `Option`, `Result` (a raised exception), Python's `list.remove` |
| `image_display.dfy` | `ImageDisplay` | `camera_calibration/display_widgets/image_display.py` |
| `main_widget.dfy` | `MainWidget` | `camera_calibration/main_widget.py` |
| `flow_layout.dfy` | `FlowLayout` | `camera_calibration/custom_components/flow_layout.py` |
| `dock_calibrate.dfy` | `CalibrateDock` | `camera_calibration/docks/dock_calibrate.py` |
| `opencv_camera.dfy` | `OpencvCamera` | `camera_calibration/funcs/opencv_camera.py` |
| `digits.dfy` | `Digits` | `str(i)`, `int(s)`, `re.findall(r"\d+", s)[0]` as used by the camera dock |
| `dock_camera.dfy` | `CameraDock` | `camera_calibration/docks/dock_camera.py` |

Some things become parameters or oracles:

- the two OpenCV solvers are the `MainWidget.Solvers` parameter, with `Raise` standing for `cv.error`;
- the overlay images that the drawing code produces are a parameter of `PointsFound`;
- `cv.VideoCapture(i).isOpened()` is the oracle `opens: nat -> bool`;
- the path the file dialog returns is a parameter of `SaveCalibration`;
- number-to-text formatting (`str`, `:.0f`, `:.4f`, the matrix print) is the `CalibrateDock.Formats` parameter;
- each widget's style spacing and size hints are fields of `FlowLayout.LayoutItem`.

An exception that Python would raise is a `Raise` value that carries the
exception's class name.

## Model

| member | source | states |
|---|---|---|
| `ImageDisplay.New` | camera_calibration/display_widgets/image_display.py:34-42 | a fresh item has no raw image, label, object points, image points or shape, so its points are paired and absent; its thumbnail width is 200 |
| `ImageDisplay.ShapeOf` | camera_calibration/display_widgets/image_display.py:52 | the stored shape is `(width, height)`, the first two numpy dimensions reversed; with fewer than two dimensions it is the dimensions as they are |
| `ImageDisplay.SetImage` | camera_calibration/display_widgets/image_display.py:45-56 | the shown image is replaced; an unprocessed image also becomes the raw image and sets the shape, while a processed one leaves both alone; a `None` label keeps the old label; the points are untouched |
| `ImageDisplay.PointsFound` | camera_calibration/display_widgets/image_display.py:69-79 | a successful detection stores exactly its object and image points, a failed one clears both; the points stay paired; shape, raw image and label do not change |
| `ImageDisplay.ScaleToWidth` | camera_calibration/display_widgets/image_display.py:58-60 | the item takes the new width, and its key, raw and shown image, label, points and shape are unchanged |
| `ImageDisplay.ReplayKeepsPointsPaired` | camera_calibration/display_widgets/image_display.py:40-79 | any sequence of `set_image` and `points_found` calls keeps "object points are None exactly when image points are None" |
| `ImageDisplay.DetectionsKeepShape` | camera_calibration/display_widgets/image_display.py:79 | detections and processed redisplays never change the shape or the raw image |
| `MainWidget.Init` | camera_calibration/main_widget.py:72-82 | the window starts with no items, a thumbnail width of exactly 100 and every result field unset, in a valid state |
| `MainWidget.AddImage` | camera_calibration/main_widget.py:106-120 | a new item is appended at the end showing the image as both shown and raw image, with the label and the image's shape, without points and scaled to the current width; the other items and fields are unchanged, and the session stays valid |
| `MainWidget.PointsDelivered` | camera_calibration/display_widgets/image_display.py:62-79 | a detection changes only the item it belongs to, and the session stays valid |
| `MainWidget.RemoveImage` | camera_calibration/main_widget.py:110-126 | removal goes by the thumbnail's identity (its key): `ValueError` exactly when no listed item has that key; otherwise the first item with the key leaves the list, the others keep their order, and no other field changes; in a valid session the key is then gone, every other item is kept, and the session stays valid |
| `MainWidget.KeysOfRemoval` | camera_calibration/main_widget.py:125 | dropping the item at an index drops exactly the key at that index from the key list |
| `MainWidget.RemoveKeepsValid` | camera_calibration/main_widget.py:123-126 | dropping one item from a valid session keeps every other item and keeps the session valid |
| `MainWidget.ClearScrollArea` | camera_calibration/main_widget.py:128-132 | the list ends up empty and nothing else changes |
| `MainWidget.WheelEvent` | camera_calibration/main_widget.py:247-254 | with exactly Ctrl held, the width becomes the old width plus delta/12, or 0.0 when that is negative, and every thumbnail is rescaled to that width; only the width and the items change; any other modifier state changes nothing |
| `MainWidget.Paired` | camera_calibration/main_widget.py:145-152 | the dataset is no longer than the list and every entry has both object and image points |
| `MainWidget.PairedMembers` | camera_calibration/main_widget.py:145-152 | the dataset's items are exactly the listed items whose object and image points are both set |
| `MainWidget.PairedAppend` | camera_calibration/main_widget.py:145-152 | the dataset keeps display order: the dataset of a joined list is the joined datasets |
| `MainWidget.PairedRemoval` | camera_calibration/main_widget.py:123-126 | taking an item out of the list takes exactly its own dataset entry (if it has points) out of the dataset and keeps the other entries in order |
| `MainWidget.Collect` | camera_calibration/main_widget.py:142-152 | the object point, image point and shape lists have equal length and are position-aligned with the paired items |
| `MainWidget.BuildDataset` | camera_calibration/main_widget.py:142-152 | the gathering loop builds exactly the aligned dataset |
| `MainWidget.MixedShapesIff` | camera_calibration/main_widget.py:159 | "more than one distinct shape" holds exactly when some shape differs from the first |
| `MainWidget.WrapPoints` | camera_calibration/main_widget.py:163-166 | on the fisheye path each object point `p` becomes `[p]`, keeping the number of images, the point counts and the order |
| `MainWidget.Prepare` | camera_calibration/main_widget.py:154-182 | no paired item means no data; mixed shapes mean refusal; the fisheye array conversion fails exactly when the paired point counts are unequal; the standard solver is called exactly for a non-empty single-shape dataset without fisheye, and the fisheye solver exactly when the counts are also equal; the standard solver gets the object points unchanged and the fisheye solver gets them wrapped; both get the image points and the first shape as the size |
| `MainWidget.SolverSeesOneShape` | camera_calibration/main_widget.py:159-182 | whenever a solver is called, every image shape equals the size passed |
| `MainWidget.Calibrate` | camera_calibration/main_widget.py:140-184 | an empty or mixed-shape dataset clears the results and returns the error dialog's message; otherwise the model flag is recorded first; the outcome is `Calibrated` exactly when a solver is called, returns, and the summary can be formatted, and then all five result fields hold the solver's tuple and the label shows the summary; a failed array conversion or a solver error escapes with only the flag changed; whenever a solver is called, the outcome is that of storing its result, so a summary that fails to format leaves the five fields assigned and lets its exception escape; the item list never changes |
| `MainWidget.Store` | camera_calibration/main_widget.py:167-184 | a solver error escapes before any result field is assigned; otherwise exactly the five result fields are replaced by the solver's tuple, and the outcome is `Calibrated` exactly when the summary can be formatted; if formatting raises, that exception escapes and the label keeps its old text |
| `MainWidget.RefusalIgnoresSolvers` | camera_calibration/main_widget.py:154-162 | a refused calibration never consults a solver and leaves no result set |
| `MainWidget.FailedSolveKeepsStaleResults` | camera_calibration/main_widget.py:141-182 | as written, after a standard calibration a fisheye run whose solver raises leaves all the standard results in place under the new fisheye flag, so a save would record the standard coefficients as fisheye ones |
| `MainWidget.CalibrateChecked` | camera_calibration/main_widget.py:140-184 | corrected: the outcome is that of `calibrate`; a successful run keeps its results, every other run clears them, so results are only ever set by a successful run of the recorded model |
| `MainWidget.CheckedFailedSolveClears` | camera_calibration/main_widget.py:140-198 | corrected: in the same scenario the results are cleared and a following save refuses |
| `MainWidget.ClearResults` | camera_calibration/main_widget.py:227-235 | the six result fields and the save path are unset and the label is emptied; the items are kept |
| `MainWidget.Suffix` | camera_calibration/main_widget.py:205-218 | `Path.suffix`: the suffix is non-empty exactly when the last path component has a dot that is neither its first nor its last character, and it is then the text from the last such dot on |
| `MainWidget.LastDotIsTheLastDot` | camera_calibration/main_widget.py:205 | a dot with no dot after it is the last dot of the name |
| `MainWidget.LastComponent` | camera_calibration/main_widget.py:205 | the name is the tail of the path after its last `/`, or the whole path when there is none |
| `MainWidget.Record` | camera_calibration/main_widget.py:207-224 | the saved record has exactly the keys `K`, `D` and `fisheye` |
| `MainWidget.RecordRoundTrip` | camera_calibration/main_widget.py:207-212 | reading the record back gives exactly the session's camera matrix, coefficients and model flag |
| `MainWidget.SaveCalibration` | camera_calibration/main_widget.py:186-225 | the save refuses unless all six results are set; otherwise it remembers the path, writes the record as JSON or npz exactly for those suffixes, and announces the path whatever the suffix |
| `MainWidget.SaveAfterClearRefuses` | camera_calibration/main_widget.py:187-198 | after `clear_results` a save always refuses, with nothing written or announced |
| `MainWidget.SavedAnnouncedWithoutFile` | camera_calibration/main_widget.py:205-225 | as written, the empty path (a cancelled dialog) is announced as saved though no file is written |
| `MainWidget.SaveCalibrationChecked` | camera_calibration/main_widget.py:225 | corrected: the path is announced exactly when a file was written |
| `FlowLayout.AddItem` | camera_calibration/custom_components/flow_layout.py:24-28 | the item lands at index `count`, the count grows by one, and earlier items stay where they were |
| `FlowLayout.Count` | camera_calibration/custom_components/flow_layout.py:27-28 | the count is the number of managed items, and zero exactly when there are none |
| `FlowLayout.ItemAt` | camera_calibration/custom_components/flow_layout.py:30-34 | an item comes back exactly when `0 <= index < count`, namely the item at that index |
| `FlowLayout.TakeAt` | camera_calibration/custom_components/flow_layout.py:36-40 | in range, it removes and returns that item and the rest keep their order; out of range, it returns `None` and changes nothing |
| `FlowLayout.TakeAtUndoesAddItem` | camera_calibration/custom_components/flow_layout.py:24-40 | taking at the old count after adding gives back the item and the original layout |
| `FlowLayout.Drain` | camera_calibration/custom_components/flow_layout.py:19-22 | repeated `takeAt(0)` returns every item in order and leaves the list empty |
| `FlowLayout.MinimumSize` | camera_calibration/custom_components/flow_layout.py:59-68 | on each axis, the largest item minimum, starting from Qt's invalid size -1, plus twice the top margin |
| `FlowLayout.Step` | camera_calibration/custom_components/flow_layout.py:88-101 | a wrap puts the item at `rect.x`, one line height plus the vertical spacing lower; otherwise it sits at the cursor; the cursor then moves past it by its width plus the horizontal spacing; the line height becomes the larger of the item's height and the old line height, or the item's height alone after a wrap |
| `FlowLayout.DoLayout` | camera_calibration/custom_components/flow_layout.py:70-103 | the loop reports the same height whether or not it is test-only, and assigns geometries only when it is not |
| `FlowLayout.HeightForWidth` | camera_calibration/custom_components/flow_layout.py:48-50 | the height is that of a layout pass over `Rect(0, 0, width, 0)`, and 0 for an empty layout |
| `FlowLayout.FirstItemAtOrigin` | camera_calibration/custom_components/flow_layout.py:70-98 | the first item is placed at the rectangle's top-left corner |
| `FlowLayout.RunVertical` | camera_calibration/custom_components/flow_layout.py:88-103 | for non-negative heights and vertical spacing, lines only move down, and the final line's bottom covers every placed item |
| `FlowLayout.ArrangeIsOrdered` | camera_calibration/custom_components/flow_layout.py:90-103 | placed y values never decrease in item order, every item lies within the reported height, and that height is never negative |
| `FlowLayout.RunFits` | camera_calibration/custom_components/flow_layout.py:90-98 | for positive heights, every item either starts a line at `rect.x` or ends before `rect.right()` |
| `FlowLayout.ArrangeFits` | camera_calibration/custom_components/flow_layout.py:90-98 | the same holds for a whole layout pass |
| `CalibrateDock.ChoiceFlags` | camera_calibration/docks/dock_calibrate.py:42-44 | "Standard" selects the standard model and "Fish Eye" the fisheye model |
| `CalibrateDock.IsFisheye` | camera_calibration/docks/dock_calibrate.py:42-44 | the emitted flag is true exactly when the text without its spaces has seven characters that lower-case to "fisheye" |
| `CalibrateDock.FlagIgnoresSpaces` | camera_calibration/docks/dock_calibrate.py:43 | inserting a space anywhere in the selected text never changes the flag |
| `CalibrateDock.FlagIgnoresCase` | camera_calibration/docks/dock_calibrate.py:43 | lower-casing the selected text never changes the flag |
| `CalibrateDock.RemoveSpaces` | camera_calibration/docks/dock_calibrate.py:43 | no space is left, and every other character keeps its count |
| `CalibrateDock.NoSpaces` | camera_calibration/docks/dock_calibrate.py:43 | text without spaces is left unchanged |
| `CalibrateDock.FirstColumnOfFisheyeArray` | camera_calibration/docks/dock_calibrate.py:78 | the first column of the fisheye solver's 4x1 array is its four coefficients in order |
| `CalibrateDock.ReadIntrinsics` | camera_calibration/docks/dock_calibrate.py:55-59 | fx, fy, cx, cy and s are `K[0][0]`, `K[1][1]`, `K[0][2]`, `K[1][2]` and `K[0][1]`; a matrix too small for these raises `IndexError` |
| `CalibrateDock.ReadIntrinsicsOfCameraMatrix` | camera_calibration/docks/dock_calibrate.py:55-59 | reading a pinhole camera matrix gives back the parameters it was built from |
| `CalibrateDock.FirstColumn` | camera_calibration/docks/dock_calibrate.py:78 | `d[:, 0]` is the first entry of every row, and raises when a row is empty |
| `CalibrateDock.DistortionTerms` | camera_calibration/docks/dock_calibrate.py:77-95 | fisheye needs exactly 4 coefficients from the first column, labelled k1, k2, k3, k4; standard needs exactly 5 from the first row, labelled k1, k2, p1, p2, k3; any other shape raises |
| `CalibrateDock.DistortionTermsOfSolverArrays` | camera_calibration/docks/dock_calibrate.py:77-95 | each solver's coefficient array comes back in solver order under its model's labels |
| `CalibrateDock.SetResults` | camera_calibration/docks/dock_calibrate.py:46-96 | the label succeeds exactly when both arrays can be read, otherwise the read's exception escapes; on success the text is "Results:\n\n", the RMS section, the focal, centre and matrix sections of K, and the model's distortion section, in that order |
| `CalibrateDock.SetResultsShowsIntrinsics` | camera_calibration/docks/dock_calibrate.py:55-74 | the text contains the lines `fx = `, `fy = `, `cx = ` and `cy = ` with `K[0][0]`, `K[1][1]`, `K[0][2]` and `K[1][2]`, and the printed camera matrix |
| `CalibrateDock.SetResultsShowsCoefficients` | camera_calibration/docks/dock_calibrate.py:77-95 | the text contains one `name = value` line per coefficient: k1..k4 from the first column for fisheye, k1, k2, p1, p2, k3 from the first row otherwise |
| `CalibrateDock.CoefficientLinesShowAll` | camera_calibration/docks/dock_calibrate.py:80-95 | the coefficient block contains the line of every coefficient it lists |
| `CalibrateDock.ContainsTrans` | camera_calibration/docks/dock_calibrate.py:61-96 | text found inside a part of the label is found in the whole label |
| `OpencvCamera.OpenPrefix` | camera_calibration/funcs/opencv_camera.py:6-13 | the probe stops at the first index that fails to open, or at `max_no` |
| `OpencvCamera.Probe` | camera_calibration/funcs/opencv_camera.py:4-14 | the probe from `index` lists consecutive indices from `index` on, each of which opened, and never passes `max_no` |
| `OpencvCamera.ProbeIsRange` | camera_calibration/funcs/opencv_camera.py:6-13 | the probe yields exactly the indices `0..k-1`, where k is the first failing index or `max_no` |
| `OpencvCamera.ProbeFromZero` | camera_calibration/funcs/opencv_camera.py:4-14 | the probe from index 0 is `[0, 1, ..., k-1]`, every index opened, at most `max_no` long, empty when `max_no <= 0`, and stopped by a failing index when shorter than `max_no` |
| `OpencvCamera.GetCameras` | camera_calibration/funcs/opencv_camera.py:4-14 | the result is `[0, 1, ..., k-1]`, strictly increasing, every index opened, of length at most `max_no`, and empty when `max_no <= 0`; if it is shorter than `max_no`, the next index failed to open |
| `Digits.NatToString` | camera_calibration/docks/dock_camera.py:56 | `str(i)` is a non-empty run of digits with no leading zero |
| `Digits.ParseDigits` | camera_calibration/docks/dock_camera.py:64 | `int(s)` of a digit string is below 10 to the power of its length, and zero exactly when every digit is `0` |
| `Digits.ParseNatToString` | camera_calibration/docks/dock_camera.py:64 | `int(str(i)) == i` |
| `Digits.FirstDigitRun` | camera_calibration/docks/dock_camera.py:64 | the first match of `\d+` is a maximal digit run preceded only by non-digits; there is none exactly when the text has no digit |
| `Digits.FirstRunAfterPrefix` | camera_calibration/docks/dock_camera.py:64 | after a digit-free prefix, the digits that follow are the first run found |
| `CameraDock.LabelRoundTrip` | camera_calibration/docks/dock_camera.py:56-64 | the number parsed from "Camera i" is i, for every i >= 0 |
| `CameraDock.CameraLabel` | camera_calibration/docks/dock_camera.py:56 | an entry is "Camera " followed by a decimal numeral without leading zeros |
| `CameraDock.CurrentText` | camera_calibration/docks/dock_camera.py:61 | the current text is the selected entry when the current index is in range, and empty when nothing is selected |
| `CameraDock.ParseCameraNo` | camera_calibration/docks/dock_camera.py:64 | no number exactly when the text has no digit (the `IndexError`); otherwise the value of the maximal digit run starting at the first digit |
| `CameraDock.Refresh` | camera_calibration/docks/dock_camera.py:53-58 | the entries become exactly "Camera i" for each probed index, in probe order; the remembered camera is reselected only when it is non-zero and was probed, and otherwise the first entry is selected; the buttons are untouched |
| `CameraDock.Init` | camera_calibration/docks/dock_camera.py:14-30 | the dock starts with both buttons enabled and no remembered camera; it has probed devices 0..9 once, with one "Camera i" entry per camera found, and it selects camera 0 when it exists |
| `CameraDock.Connect` | camera_calibration/docks/dock_camera.py:60-64 | as written: both buttons are disabled, the number parsed from the current entry is emitted, and nothing else in the dock changes |
| `CameraDock.ConnectWithoutCamerasLocksButtons` | camera_calibration/docks/dock_camera.py:60-64 | as written: with no camera probed, a click disables both buttons and raises before emitting |
| `CameraDock.ConnectChecked` | camera_calibration/docks/dock_camera.py:60-64 | corrected: a click that parses no number leaves the dock unchanged; otherwise both buttons are disabled, nothing else changes, and the number is emitted |
| `CameraDock.ConnectCheckedWithoutCamerasKeepsButtons` | camera_calibration/docks/dock_camera.py:60-64 | corrected: with no camera probed, a click keeps both buttons as they were |
| `CameraDock.ConnectEmitsSelectedCamera` | camera_calibration/docks/dock_camera.py:53-64 | after a refresh that found a camera, connecting emits the number of the selected camera |
| `CameraDock.CameraClosed` | camera_calibration/docks/dock_camera.py:66-68 | both buttons are enabled again and the entries are kept |
| `CameraDock.ConnectThenCloseEnablesAll` | camera_calibration/docks/dock_camera.py:60-68 | a successful connect followed by `camera_closed` returns the dock to its all-enabled state |
| `Base.RemoveFirst` | camera_calibration/main_widget.py:125 | `list.remove` drops the first equal element and keeps the rest in order, and raises `ValueError` when there is none |
| `Base.RemoveFirstDistinct` | camera_calibration/main_widget.py:125 | with distinct elements, the removed element is gone from the result and every other element is still there |

## Left out

- Pattern detection (`find_points`), the pattern renderer, image conversion and mimetype checks are not part of this model. Their files are only re-exported by `camera_calibration/funcs/__init__.py`. A detection's outcome is a `Detection` value, and the overlay it draws is a parameter.
- The numerical solvers `cv.calibrateCamera` and `cv.fisheye.calibrate` are floating-point optimisation in OpenCV. They are the uninterpreted `Solvers` parameter.
- Overlay drawing in `draw_ok`/`draw_error` is float geometry plus OpenCV drawing. It is left out.
- Threading is left out: the thread pool and `FindPointsRunnable`, the stream worker and the camera window's thread lifecycle. A detection result arrives as one `PointsDelivered` step.
- Qt plumbing is left out: dock and menu construction, drag-and-drop path filtering, the scroll area, the file dialog, and the JSON/npz file writing. Only the record and its format choice are modelled.
- Settings save and restore through reflection (`gui_save_base.py`) is left out. It saves a combo box's current text and restores it by reselecting that text (camera_calibration/custom_components/gui_save_base.py:30-31, 53-54). The dock's `camera_no` is set to 0 at camera_calibration/docks/dock_camera.py:20 and never assigned again, so the reselection branch of `refresh_devices` never fires; `Refresh` models that branch as written.
- The main window's wiring of `camera_closed` is left out: it calls the slot while connecting instead of passing it. `CameraDock.CameraClosed` models the dock's own transition.
- CalibrateDock.Lower: models `str.lower` on ASCII letters only. The combo entries are ASCII.
- Digits.FirstDigitRun: reads only ASCII digits for `\d`. The camera labels are ASCII.
- MainWidget.Suffix: takes the last component after the final `/`. It does not model `pathlib`'s other normalisations, such as trailing separators or `.` segments.
- MainWidget.Prepare: assumes each image's object points are an `(N, 3)` array. For the fisheye path it treats unequal point counts across images as the array conversion raising.
- MainWidget.WheelEvent: takes the modifier state as a set of flags and the vertical angle delta as an integer, as Qt reports them. The scaled pixmaps themselves are presentation and are left out.
- ImageDisplay.ScaleToWidth: records only the new width; rescaling the pixmap is presentation.

## Findings

| source | as written | input that shows it | evidently intended | confidence | as-written member | corrected member |
|---|---|---|---|---|---|---|
| camera_calibration/docks/dock_camera.py:60-64 | both buttons are disabled before the camera number is parsed from the current text | no camera opens, so the combo is empty and the current text is `""`; `re.findall` returns `[]` and `[0]` raises `IndexError`, leaving connect and refresh disabled with no camera to close | leave the buttons alone when no camera number can be read | not executed; high that the buttons stay disabled | `CameraDock.ConnectWithoutCamerasLocksButtons` | `CameraDock.ConnectCheckedWithoutCamerasKeepsButtons` |
| camera_calibration/main_widget.py:205-225 | `calibration_saved` is emitted whatever the suffix, including when nothing was written | results set and the dialog cancelled (`Path("")`, which is `.`) or a name such as `calib.txt`: no file is written, yet the path is announced as saved | announce only a path that was written | not executed; medium, since the intent of the signal is inferred from its name | `MainWidget.SavedAnnouncedWithoutFile` | `MainWidget.SaveCalibrationChecked` |
| camera_calibration/main_widget.py:140-184 | `self.fisheye` is assigned before the solver runs, and the old results are kept when the array conversion or the solver raises | a standard calibration succeeds, then a fisheye calibration whose solver raises `cv.error`: the standard camera matrix and coefficients stay set beside `fisheye = True`, and a save writes them as a fisheye calibration | a failed calibration leaves no results behind, as the refusal paths do by calling `clear_results` | not executed; medium, since the refusal paths clear the results but the exception paths were perhaps not considered | `MainWidget.FailedSolveKeepsStaleResults` | `MainWidget.CalibrateChecked` |

=== FILE: base.dfy ===
/** Shared value wrappers: Python's `None`-or-value fields and operations that
    either return a value or raise. */
module Base {

  /** A field that Python leaves `None` until it is assigned. */
  datatype Option<+T> = None | Some(value: T)

  /** The outcome of an operation that may raise: `Raise` carries the Python
      exception class name. */
  datatype Result<+T> = Ok(value: T) | Raise(exception: string) {
    predicate IsFailure() { Raise? }

    function PropagateFailure<U>(): Result<U>
      requires Raise?
    {
      Raise(exception)
    }

    function Extract(): T
      requires Ok?
    {
      value
    }
  }

  /** Position of the first element of `s` equal to `x`. */
  function FirstIndex<T(==)>(s: seq<T>, x: T): (i: nat)
    requires x in s
    ensures i < |s| && s[i] == x && x !in s[..i]
  {
    if s[0] == x then 0 else 1 + FirstIndex(s[1..], x)
  }

  /** Python's `list.remove(x)`: drop the first element equal to `x`, or raise
      `ValueError` when there is none. */
  function RemoveFirst<T(==)>(s: seq<T>, x: T): (r: Result<seq<T>>)
    ensures r.Raise? <==> x !in s
    ensures r.Ok? ==> |r.value| == |s| - 1
    ensures r.Ok? ==> multiset(r.value) + multiset{x} == multiset(s)
    ensures r.Ok? ==> exists i :: 0 <= i < |s| && s[i] == x && x !in s[..i] && r.value == s[..i] + s[i+1..]
  {
    if x !in s then Raise("ValueError")
    else
      var i := FirstIndex(s, x);
      assert s == s[..i] + [s[i]] + s[i+1..];
      Ok(s[..i] + s[i+1..])
  }

  /** With pairwise-distinct elements, the removal drops exactly `x`: every
      other element is still there. */
  lemma {:induction false} RemoveFirstDistinct<T>(s: seq<T>, x: T)
    requires forall i, j :: 0 <= i < j < |s| ==> s[i] != s[j]
    requires x in s
    ensures x !in RemoveFirst(s, x).value
    ensures forall k :: 0 <= k < |s| && s[k] != x ==> s[k] in RemoveFirst(s, x).value
  {
    var i := FirstIndex(s, x);
    var r := s[..i] + s[i + 1..];
    assert RemoveFirst(s, x).value == r;
    forall k | 0 <= k < |r|
      ensures r[k] != x
    {
      if k < i {
        assert r[k] == s[k];
      } else {
        assert r[k] == s[k + 1];
      }
    }
    forall k | 0 <= k < |s| && s[k] != x
      ensures s[k] in r
    {
      if k < i {
        assert r[k] == s[k];
      } else {
        assert k != i;
        assert r[k - 1] == s[k];
      }
    }
  }
}

=== FILE: digits.dfy ===
/** Decimal text for camera numbers: Python's `str(i)` for a non-negative
    integer, `int(...)` of a digit string, and the first match of the regular
    expression `\d+` (ASCII digits). */
module Digits {
  import opened Base

  predicate IsDigit(c: char) {
    '0' <= c <= '9'
  }

  predicate AllDigits(s: string) {
    forall i :: 0 <= i < |s| ==> IsDigit(s[i])
  }

  predicate NoDigits(s: string) {
    forall i :: 0 <= i < |s| ==> !IsDigit(s[i])
  }

  function DigitChar(d: nat): (c: char)
    requires d < 10
    ensures IsDigit(c)
  {
    ('0' as int + d) as char
  }

  function DigitValue(c: char): (d: nat)
    requires IsDigit(c)
    ensures d < 10
  {
    c as int - '0' as int
  }

  /** `str(n)` for `n >= 0`: the shortest decimal numeral. */
  function NatToString(n: nat): (s: string)
    ensures |s| >= 1 && AllDigits(s)
    ensures |s| > 1 ==> s[0] != '0'
  {
    if n < 10 then [DigitChar(n)] else NatToString(n / 10) + [DigitChar(n % 10)]
  }

  function Pow10(n: nat): (r: nat)
    ensures r >= 1
  {
    if n == 0 then 1 else 10 * Pow10(n - 1)
  }

  /** `int(s)` for a string of decimal digits. */
  function ParseDigits(s: string): (r: nat)
    requires AllDigits(s)
    ensures r < Pow10(|s|)
    ensures r == 0 <==> forall i :: 0 <= i < |s| ==> s[i] == '0'
  {
    if |s| == 0 then 0 else ParseDigits(s[..|s| - 1]) * 10 + DigitValue(s[|s| - 1])
  }

  /** Parsing the numeral of `n` gives `n` back. */
  lemma {:induction false} ParseNatToString(n: nat)
    ensures ParseDigits(NatToString(n)) == n
  {
    var s := NatToString(n);
    if n >= 10 {
      ParseNatToString(n / 10);
      assert s[..|s| - 1] == NatToString(n / 10);
      assert DigitValue(s[|s| - 1]) == n % 10;
    } else {
      assert s[..0] == [];
      assert DigitValue(s[0]) == n;
    }
  }

  /** The longest run of digits at the start of `s`. */
  function LeadingDigits(s: string): (r: string)
    ensures |r| <= |s| && r == s[..|r|] && AllDigits(r)
    ensures |r| < |s| ==> !IsDigit(s[|r|])
  {
    if |s| == 0 || !IsDigit(s[0]) then "" else [s[0]] + LeadingDigits(s[1..])
  }

  /** Position of the first digit of `s`, if any. */
  function FirstDigitAt(s: string): (r: Option<nat>)
    ensures r.None? <==> NoDigits(s)
    ensures r.Some? ==> r.value < |s| && IsDigit(s[r.value]) && NoDigits(s[..r.value])
  {
    if |s| == 0 then None
    else if IsDigit(s[0]) then Some(0)
    else
      match FirstDigitAt(s[1..])
      case None => None
      case Some(i) =>
        assert s[..i + 1] == [s[0]] + s[1..][..i];
        Some(i + 1)
  }

  /** `re.findall(r"\d+", s)[0]`: the first maximal run of digits, or `None`
      where indexing the empty match list would raise. */
  function FirstDigitRun(s: string): (r: Option<string>)
    ensures r.None? <==> NoDigits(s)
    ensures r.Some? ==> |r.value| >= 1 && AllDigits(r.value)
    ensures r.Some? ==>
      var start := FirstDigitAt(s).value;
      && start + |r.value| <= |s|
      && NoDigits(s[..start])
      && s[start..start + |r.value|] == r.value
      && (start + |r.value| == |s| || !IsDigit(s[start + |r.value|]))
  {
    match FirstDigitAt(s)
    case None => None
    case Some(start) =>
      var run := LeadingDigits(s[start..]);
      assert s[start..][..|run|] == s[start..start + |run|];
      Some(run)
  }

  /** Digits that follow a digit-free prefix are the first run found. */
  lemma {:induction false} FirstRunAfterPrefix(prefix: string, digits: string)
    requires NoDigits(prefix)
    requires |digits| >= 1 && AllDigits(digits)
    ensures FirstDigitRun(prefix + digits) == Some(digits)
  {
    var s := prefix + digits;
    FirstDigitAfterPrefix(prefix, digits);
    assert s[|prefix|..] == digits;
    LeadingDigitsOfDigits(digits);
  }

  lemma {:induction false} FirstDigitAfterPrefix(prefix: string, digits: string)
    requires NoDigits(prefix)
    requires |digits| >= 1 && AllDigits(digits)
    ensures FirstDigitAt(prefix + digits) == Some(|prefix|)
  {
    if |prefix| == 0 {
      assert prefix + digits == digits;
    } else {
      assert (prefix + digits)[1..] == prefix[1..] + digits;
      FirstDigitAfterPrefix(prefix[1..], digits);
    }
  }

  lemma {:induction false} LeadingDigitsOfDigits(s: string)
    requires AllDigits(s)
    ensures LeadingDigits(s) == s
  {
    if |s| > 0 {
      LeadingDigitsOfDigits(s[1..]);
    }
  }
}

=== FILE: dock_calibrate.dfy ===
/** The calibrate dock (docks/dock_calibrate.py): which camera model the
    combo box selects, and how a calibration result is summarised in the
    results label. Number-to-text conversion is left abstract. */
module CalibrateDock {
  import opened Base

  /** A numpy 2-D array as rows. */
  type Matrix = seq<seq<real>>

  /** The entries of the camera-model combo box, in order. */
  const ModelChoices: seq<string> := ["Standard", "Fish Eye"]

  /** `str.replace(" ", "")`: drop every space character, keep the rest in order. */
  function RemoveSpaces(t: string): (r: string)
    ensures ' ' !in r
    ensures |r| <= |t|
    ensures forall c :: c != ' ' ==> multiset(r)[c] == multiset(t)[c]
  {
    if |t| == 0 then ""
    else
      assert t == [t[0]] + t[1..];
      if t[0] == ' ' then RemoveSpaces(t[1..]) else [t[0]] + RemoveSpaces(t[1..])
  }

  function LowerChar(c: char): char {
    if 'A' <= c <= 'Z' then (c as int + 32) as char else c
  }

  /** `str.lower` on ASCII letters. */
  function Lower(t: string): (r: string)
    ensures |r| == |t|
    ensures forall i :: 0 <= i < |t| ==> r[i] == LowerChar(t[i])
  {
    if |t| == 0 then "" else [LowerChar(t[0])] + Lower(t[1..])
  }

  /** The flag `calibrate_button_clicked` emits for the selected text. */
  function IsFisheye(selected: string): (r: bool)
    ensures var t := RemoveSpaces(selected);
      r <==> |t| == 7 && forall i :: 0 <= i < 7 ==> LowerChar(t[i]) == "fisheye"[i]
  {
    Lower(RemoveSpaces(selected)) == "fisheye"
  }

  /** The two combo entries select the standard and the fisheye model. */
  lemma {:induction false} ChoiceFlags()
    ensures !IsFisheye(ModelChoices[0])
    ensures IsFisheye(ModelChoices[1])
  {
    StandardFlag();
    FishEyeFlag();
  }

  lemma {:induction false} StandardFlag()
    ensures !IsFisheye("Standard")
  {
    assert RemoveSpaces("Standard")[0] == 'S';
    assert Lower(RemoveSpaces("Standard"))[0] == 's';
  }

  lemma {:induction false} FishEyeFlag()
    ensures IsFisheye("Fish Eye")
  {
    FishEyeSpaces();
    FishEyeLower();
  }

  lemma {:induction false} FishEyeSpaces()
    ensures RemoveSpaces("Fish Eye") == "FishEye"
  {
    assert "Fish Eye" == ("Fish" + " ") + "Eye";
    RemoveSpacesAppend("Fish" + " ", "Eye");
    RemoveSpacesAppend("Fish", " ");
    NoSpaces("Fish");
    NoSpaces("Eye");
    assert RemoveSpaces(" ") == "";
  }

  lemma {:induction false} FishEyeLower()
    ensures Lower("FishEye") == "fisheye"
  {
    var r := Lower("FishEye");
    assert LowerChar('F') == 'f';
    assert LowerChar('E') == 'e';
    assert r[0] == 'f' && r[1] == 'i' && r[2] == 's' && r[3] == 'h';
    assert r[4] == 'e' && r[5] == 'y' && r[6] == 'e';
  }

  /** Text without spaces is left as it is. */
  lemma {:induction false} NoSpaces(t: string)
    requires ' ' !in t
    ensures RemoveSpaces(t) == t
  {
    if |t| > 0 {
      assert t[0] != ' ';
      assert ' ' !in t[1..];
      NoSpaces(t[1..]);
      assert t == [t[0]] + t[1..];
    }
  }

  lemma {:induction false} RemoveSpacesAppend(a: string, b: string)
    ensures RemoveSpaces(a + b) == RemoveSpaces(a) + RemoveSpaces(b)
  {
    if |a| > 0 {
      assert (a + b)[1..] == a[1..] + b;
      assert (a + b)[0] == a[0];
      RemoveSpacesAppend(a[1..], b);
    } else {
      assert a + b == b;
    }
  }

  /** Inserting a space anywhere never changes the selected model. */
  lemma {:induction false} FlagIgnoresSpaces(a: string, b: string)
    ensures IsFisheye(a + " " + b) == IsFisheye(a + b)
  {
    RemoveSpacesAppend(a + " ", b);
    RemoveSpacesAppend(a, " ");
    RemoveSpacesAppend(a, b);
    assert RemoveSpaces(" ") == "";
    assert RemoveSpaces(a) + "" == RemoveSpaces(a);
  }

  lemma {:induction false} RemoveSpacesLower(t: string)
    ensures RemoveSpaces(Lower(t)) == Lower(RemoveSpaces(t))
  {
    if |t| > 0 {
      assert Lower(t)[1..] == Lower(t[1..]);
      RemoveSpacesLower(t[1..]);
      if t[0] != ' ' {
        assert Lower([t[0]] + RemoveSpaces(t[1..])) == [LowerChar(t[0])] + Lower(RemoveSpaces(t[1..]));
      }
    }
  }

  lemma {:induction false} LowerIdempotent(t: string)
    ensures Lower(Lower(t)) == Lower(t)
  {
  }

  /** Letter case never changes the selected model. */
  lemma {:induction false} FlagIgnoresCase(t: string)
    ensures IsFisheye(Lower(t)) == IsFisheye(t)
  {
    RemoveSpacesLower(t);
    LowerIdempotent(RemoveSpaces(t));
  }

  /** The five intrinsic parameters the summary shows. */
  datatype Intrinsics = Intrinsics(fx: real, fy: real, cx: real, cy: real, skew: real)

  /** The pinhole camera matrix these parameters stand for. */
  function CameraMatrix(p: Intrinsics): Matrix {
    [[p.fx, p.skew, p.cx], [0.0, p.fy, p.cy], [0.0, 0.0, 1.0]]
  }

  /** Read fx, fy, cx, cy and s from the camera matrix; indexing outside it
      raises `IndexError`. */
  function ReadIntrinsics(k: Matrix): (r: Result<Intrinsics>)
    ensures r.Ok? <==> |k| >= 2 && |k[0]| >= 3 && |k[1]| >= 3
    ensures r.Raise? ==> r.exception == "IndexError"
    ensures r.Ok? ==> r.value.fx == k[0][0] && r.value.fy == k[1][1]
    ensures r.Ok? ==> r.value.cx == k[0][2] && r.value.cy == k[1][2] && r.value.skew == k[0][1]
  {
    if |k| >= 2 && |k[0]| >= 3 && |k[1]| >= 3 then
      Ok(Intrinsics(k[0][0], k[1][1], k[0][2], k[1][2], k[0][1]))
    else
      Raise("IndexError")
  }

  /** Reading a camera matrix gives back exactly the parameters it was built from. */
  lemma {:induction false} ReadIntrinsicsOfCameraMatrix(p: Intrinsics)
    ensures ReadIntrinsics(CameraMatrix(p)) == Ok(p)
  {
  }

  /** A distortion coefficient with the label the summary gives it. */
  datatype Coefficient = Coefficient(name: string, value: real)

  const FisheyeNames: seq<string> := ["k1", "k2", "k3", "k4"]
  const StandardNames: seq<string> := ["k1", "k2", "p1", "p2", "k3"]

  function Label(names: seq<string>, values: seq<real>): (r: seq<Coefficient>)
    requires |names| == |values|
    ensures |r| == |names|
    ensures forall i :: 0 <= i < |r| ==> r[i] == Coefficient(names[i], values[i])
  {
    if |names| == 0 then [] else [Coefficient(names[0], values[0])] + Label(names[1..], values[1..])
  }

  /** The first column of a 2-D array (`d[:, 0]`); a row without entries
      raises `IndexError`. */
  function FirstColumn(d: Matrix): (r: Result<seq<real>>)
    ensures r.Ok? <==> forall i :: 0 <= i < |d| ==> |d[i]| > 0
    ensures r.Ok? ==> |r.value| == |d| && forall i :: 0 <= i < |d| ==> r.value[i] == d[i][0]
  {
    if |d| == 0 then Ok([])
    else if |d[0]| == 0 then Raise("IndexError")
    else
      match FirstColumn(d[1..])
      case Raise(e) => Raise(e)
      case Ok(rest) => Ok([d[0][0]] + rest)
  }

  /** The distortion section's coefficients: the fisheye model unpacks the
      first column into exactly four, the standard model the first row into
      exactly five; any other count fails to unpack (`ValueError`). */
  function DistortionTerms(d: Matrix, fisheye: bool): (r: Result<seq<Coefficient>>)
    ensures fisheye ==> (r.Ok? <==> |d| == 4 && forall i :: 0 <= i < 4 ==> |d[i]| > 0)
    ensures !fisheye ==> (r.Ok? <==> |d| >= 1 && |d[0]| == 5)
    ensures r.Ok? && fisheye ==>
      (|r.value| == 4 && forall i :: 0 <= i < 4 ==> r.value[i] == Coefficient(FisheyeNames[i], d[i][0]))
    ensures r.Ok? && !fisheye ==>
      (|r.value| == 5 && forall i :: 0 <= i < 5 ==> r.value[i] == Coefficient(StandardNames[i], d[0][i]))
  {
    if fisheye then
      var column :- FirstColumn(d);
      if |column| == 4 then Ok(Label(FisheyeNames, column)) else Raise("ValueError")
    else if |d| == 0 then Raise("IndexError")
    else if |d[0]| == 5 then Ok(Label(StandardNames, d[0]))
    else Raise("ValueError")
  }

  /** The coefficient arrays each solver hands back: a 4x1 column for the
      fisheye model, a 1x5 row for the standard one. */
  function FisheyeArray(ks: seq<real>): Matrix
    requires |ks| == 4
  {
    [[ks[0]], [ks[1]], [ks[2]], [ks[3]]]
  }

  function StandardArray(ks: seq<real>): Matrix
    requires |ks| == 5
  {
    [ks]
  }

  /** Each model's coefficients come back in solver order under their labels. */
  lemma {:induction false} DistortionTermsOfSolverArrays(ks: seq<real>)
    ensures |ks| == 4 ==> DistortionTerms(FisheyeArray(ks), true) == Ok(Label(FisheyeNames, ks))
    ensures |ks| == 5 ==> DistortionTerms(StandardArray(ks), false) == Ok(Label(StandardNames, ks))
  {
    if |ks| == 4 {
      FirstColumnOfFisheyeArray(ks);
    }
  }

  /** The first column of the fisheye solver's array is its coefficient list. */
  lemma {:induction false} FirstColumnOfFisheyeArray(ks: seq<real>)
    requires |ks| == 4
    ensures FirstColumn(FisheyeArray(ks)) == Ok(ks)
  {
    var d := FisheyeArray(ks);
    assert forall i :: 0 <= i < |d| ==> |d[i]| > 0;
    var column := FirstColumn(d).value;
    assert forall i :: 0 <= i < 4 ==> column[i] == ks[i];
    assert column == ks;
  }

  /** How numbers become text: `str()` of the RMS error, `:.0f`, `:.4f` and
      the integer print of the camera matrix. */
  datatype Formats = Formats(
    plain: real -> string,
    whole: real -> string,
    fixed4: real -> string,
    matrix: Matrix -> string)

  const Heading: string := "Results:\n\n"

  /** One `name = value` line of the summary. */
  function Line(name: string, value: string): string {
    name + " = " + value + "\n"
  }

  function CoefficientLines(terms: seq<Coefficient>, f: Formats): string {
    if |terms| == 0 then ""
    else Line(terms[0].name, f.fixed4(terms[0].value)) + CoefficientLines(terms[1..], f)
  }

  /** The last section of the summary. */
  function DistortionSection(terms: seq<Coefficient>, f: Formats): string {
    "Distortion Coefficients,\n" + CoefficientLines(terms, f)
  }

  /** The RMS section that opens the summary. */
  function RmsSection(rms: real, f: Formats): string {
    "RMS Error,\n" + f.plain(rms)
  }

  function FocalSection(p: Intrinsics, f: Formats): string {
    "Focal Length (pixels),\n" + Line("fx", f.whole(p.fx)) + Line("fy", f.whole(p.fy)) + "\n"
  }

  function CentreSection(p: Intrinsics, f: Formats): string {
    "Optical Centres,\n" + Line("cx", f.whole(p.cx)) + Line("cy", f.whole(p.cy)) + "\n\n"
  }

  function MatrixSection(k: Matrix, f: Formats): string {
    "Camera Matrix,\n" + f.matrix(k) + "\n" + "\n\n"
  }

  /** The sections between the RMS value and the distortion section. */
  function CameraSections(k: Matrix, p: Intrinsics, f: Formats): string {
    "\n\n" + FocalSection(p, f) + CentreSection(p, f) + MatrixSection(k, f)
  }

  predicate StartsWith(s: string, prefix: string) {
    |prefix| <= |s| && s[..|prefix|] == prefix
  }

  predicate EndsWith(s: string, suffix: string) {
    |suffix| <= |s| && s[|s| - |suffix|..] == suffix
  }

  /** `t` occurs in `s` starting at position `i`. */
  predicate OccursAt(s: string, t: string, i: int) {
    0 <= i && i + |t| <= |s| && s[i..i + |t|] == t
  }

  /** `t` occurs somewhere in `s`. */
  predicate Contains(s: string, t: string) {
    exists i :: 0 <= i <= |s| && OccursAt(s, t, i)
  }

  lemma {:induction false} JoinStartsWith(a: string, b: string)
    ensures StartsWith(a + b, a)
    ensures Contains(a + b, a)
  {
    assert (a + b)[..|a|] == a;
    assert OccursAt(a + b, a, 0);
  }

  lemma {:induction false} JoinEndsWith(a: string, b: string)
    ensures EndsWith(a + b, b)
    ensures Contains(a + b, b)
  {
    assert (a + b)[|a|..] == b;
    assert OccursAt(a + b, b, |a|);
  }

  lemma {:induction false} StartsWithJoin(a: string, b: string, prefix: string)
    requires StartsWith(a, prefix)
    ensures StartsWith(a + b, prefix)
  {
    assert (a + b)[..|prefix|] == a[..|prefix|];
  }

  lemma {:induction false} ContainsTrans(s: string, t: string, u: string)
    requires Contains(s, t) && Contains(t, u)
    ensures Contains(s, u)
  {
    var i :| 0 <= i <= |s| && OccursAt(s, t, i);
    var j :| 0 <= j <= |t| && OccursAt(t, u, j);
    assert s[i..i + |t|] == t;
    assert t[j..j + |u|] == u;
    forall m | 0 <= m < |u|
      ensures s[i + j..i + j + |u|][m] == u[m]
    {
      assert s[i + j + m] == s[i..i + |t|][j + m] == t[j + m] == t[j..j + |u|][m];
    }
    assert s[i + j..i + j + |u|] == u;
    assert OccursAt(s, u, i + j);
  }

  /** The label text for a result whose arrays could be read. */
  function Summary(rms: real, k: Matrix, p: Intrinsics, terms: seq<Coefficient>, f: Formats): string {
    Heading + RmsSection(rms, f) + CameraSections(k, p, f) + DistortionSection(terms, f)
  }

  /** `set_results`: the results label text, or the exception reading the
      arrays raises. The text is the heading, the RMS section, the camera
      sections and the distortion section of the selected model, in order. */
  function SetResults(rms: real, k: Matrix, d: Matrix, fisheye: bool, f: Formats): (r: Result<string>)
    ensures r.Ok? <==> ReadIntrinsics(k).Ok? && DistortionTerms(d, fisheye).Ok?
    ensures r.Raise? ==> r.exception == (if ReadIntrinsics(k).Raise? then ReadIntrinsics(k).exception else DistortionTerms(d, fisheye).exception)
    ensures r.Ok? ==> r.value == Summary(rms, k, ReadIntrinsics(k).value, DistortionTerms(d, fisheye).value, f)
    ensures r.Ok? ==> StartsWith(r.value, Heading + RmsSection(rms, f))
    ensures r.Ok? ==> EndsWith(r.value, DistortionSection(DistortionTerms(d, fisheye).value, f))
  {
    var p :- ReadIntrinsics(k);
    var terms :- DistortionTerms(d, fisheye);
    var opening := Heading + RmsSection(rms, f);
    var body := opening + CameraSections(k, p, f);
    var closing := DistortionSection(terms, f);
    JoinStartsWith(opening, CameraSections(k, p, f));
    StartsWithJoin(body, closing, opening);
    JoinEndsWith(body, closing);
    Ok(body + closing)
  }

  /** The summary shows the focal lengths and optical centres read from the
      matrix cells `K[0][0]`, `K[1][1]`, `K[0][2]`, `K[1][2]`, and the
      matrix itself. */
  lemma {:induction false} SetResultsShowsIntrinsics(rms: real, k: Matrix, d: Matrix, fisheye: bool, f: Formats)
    requires SetResults(rms, k, d, fisheye, f).Ok?
    ensures var text := SetResults(rms, k, d, fisheye, f).value;
      && Contains(text, Line("fx", f.whole(k[0][0])))
      && Contains(text, Line("fy", f.whole(k[1][1])))
      && Contains(text, Line("cx", f.whole(k[0][2])))
      && Contains(text, Line("cy", f.whole(k[1][2])))
      && Contains(text, "Camera Matrix,\n" + f.matrix(k))
  {
    var p := ReadIntrinsics(k).value;
    var text := SetResults(rms, k, d, fisheye, f).value;
    var opening := Heading + RmsSection(rms, f);
    var camera := CameraSections(k, p, f);
    var closing := DistortionSection(DistortionTerms(d, fisheye).value, f);
    assert text == (opening + camera) + closing;
    JoinStartsWith(opening + camera, closing);
    JoinEndsWith(opening, camera);
    ContainsTrans(text, opening + camera, camera);
    SectionsShowIntrinsics(k, p, f);
    ContainsTrans(text, camera, Line("fx", f.whole(p.fx)));
    ContainsTrans(text, camera, Line("fy", f.whole(p.fy)));
    ContainsTrans(text, camera, Line("cx", f.whole(p.cx)));
    ContainsTrans(text, camera, Line("cy", f.whole(p.cy)));
    ContainsTrans(text, camera, "Camera Matrix,\n" + f.matrix(k));
  }

  lemma {:induction false} SectionsShowIntrinsics(k: Matrix, p: Intrinsics, f: Formats)
    ensures var camera := CameraSections(k, p, f);
      && Contains(camera, Line("fx", f.whole(p.fx)))
      && Contains(camera, Line("fy", f.whole(p.fy)))
      && Contains(camera, Line("cx", f.whole(p.cx)))
      && Contains(camera, Line("cy", f.whole(p.cy)))
      && Contains(camera, "Camera Matrix,\n" + f.matrix(k))
  {
    var focal, centre, mat := FocalSection(p, f), CentreSection(p, f), MatrixSection(k, f);
    var camera := CameraSections(k, p, f);
    var head := "\n\n" + focal;
    // camera == ((head + centre) + mat)
    JoinStartsWith(head + centre, mat);
    JoinEndsWith(head + centre, mat);
    JoinStartsWith(head, centre);
    JoinEndsWith(head, centre);
    JoinEndsWith("\n\n", focal);
    ContainsTrans(camera, head + centre, head);
    ContainsTrans(camera, head, focal);
    ContainsTrans(camera, head + centre, centre);
    // focal == (("Focal Length (pixels),\n" + fx) + fy) + "\n"
    var fx, fy := Line("fx", f.whole(p.fx)), Line("fy", f.whole(p.fy));
    JoinStartsWith("Focal Length (pixels),\n" + fx + fy, "\n");
    JoinStartsWith("Focal Length (pixels),\n" + fx, fy);
    JoinEndsWith("Focal Length (pixels),\n" + fx, fy);
    JoinEndsWith("Focal Length (pixels),\n", fx);
    ContainsTrans(focal, "Focal Length (pixels),\n" + fx + fy, "Focal Length (pixels),\n" + fx);
    ContainsTrans(focal, "Focal Length (pixels),\n" + fx, fx);
    ContainsTrans(focal, "Focal Length (pixels),\n" + fx + fy, fy);
    ContainsTrans(camera, focal, fx);
    ContainsTrans(camera, focal, fy);
    var cx, cy := Line("cx", f.whole(p.cx)), Line("cy", f.whole(p.cy));
    JoinStartsWith("Optical Centres,\n" + cx + cy, "\n\n");
    JoinStartsWith("Optical Centres,\n" + cx, cy);
    JoinEndsWith("Optical Centres,\n" + cx, cy);
    JoinEndsWith("Optical Centres,\n", cx);
    ContainsTrans(centre, "Optical Centres,\n" + cx + cy, "Optical Centres,\n" + cx);
    ContainsTrans(centre, "Optical Centres,\n" + cx, cx);
    ContainsTrans(centre, "Optical Centres,\n" + cx + cy, cy);
    ContainsTrans(camera, centre, cx);
    ContainsTrans(camera, centre, cy);
    var shown := "Camera Matrix,\n" + f.matrix(k);
    JoinStartsWith(shown + "\n", "\n\n");
    JoinStartsWith(shown, "\n");
    ContainsTrans(mat, shown + "\n", shown);
    ContainsTrans(camera, mat, shown);
  }

  /** Every coefficient appears on its own line under its label. */
  lemma {:induction false} CoefficientLinesShowAll(terms: seq<Coefficient>, f: Formats, i: nat)
    requires i < |terms|
    ensures Contains(CoefficientLines(terms, f), Line(terms[i].name, f.fixed4(terms[i].value)))
    decreases i
  {
    var first := Line(terms[0].name, f.fixed4(terms[0].value));
    var rest := CoefficientLines(terms[1..], f);
    if i == 0 {
      JoinStartsWith(first, rest);
    } else {
      CoefficientLinesShowAll(terms[1..], f, i - 1);
      JoinEndsWith(first, rest);
      ContainsTrans(CoefficientLines(terms, f), rest, Line(terms[i].name, f.fixed4(terms[i].value)));
    }
  }

  /** The summary shows each distortion coefficient of the selected model
      under its label: `k1`..`k4` from the fisheye column, `k1, k2, p1, p2,
      k3` from the standard row. */
  lemma {:induction false} SetResultsShowsCoefficients(rms: real, k: Matrix, d: Matrix, fisheye: bool, f: Formats)
    requires SetResults(rms, k, d, fisheye, f).Ok?
    ensures fisheye ==> forall i :: 0 <= i < 4 ==>
      Contains(SetResults(rms, k, d, fisheye, f).value, Line(FisheyeNames[i], f.fixed4(d[i][0])))
    ensures !fisheye ==> forall i :: 0 <= i < 5 ==>
      Contains(SetResults(rms, k, d, fisheye, f).value, Line(StandardNames[i], f.fixed4(d[0][i])))
  {
    var text := SetResults(rms, k, d, fisheye, f).value;
    var terms := DistortionTerms(d, fisheye).value;
    var head := Heading + RmsSection(rms, f) + CameraSections(k, ReadIntrinsics(k).value, f);
    var closing := DistortionSection(terms, f);
    JoinEndsWith(head, closing);
    JoinEndsWith("Distortion Coefficients,\n", CoefficientLines(terms, f));
    ContainsTrans(text, closing, CoefficientLines(terms, f));
    forall i | 0 <= i < |terms|
      ensures Contains(text, Line(terms[i].name, f.fixed4(terms[i].value)))
    {
      CoefficientLinesShowAll(terms, f, i);
      ContainsTrans(text, CoefficientLines(terms, f), Line(terms[i].name, f.fixed4(terms[i].value)));
    }
  }
}

=== FILE: dock_camera.dfy ===
/** The camera dock (docks/dock_camera.py): the device combo box, the
    remembered camera number and the enabled state of the connect and
    refresh buttons. */
module CameraDock {
  import opened Base
  import opened Digits
  import OpencvCamera

  /** How many device indices a refresh probes. */
  const ProbeLimit: int := 10

  /** `current` is the combo box's current index, -1 when it is empty. */
  datatype Dock = Dock(
    cameras: seq<nat>,
    cameraNo: int,
    entries: seq<string>,
    current: int,
    connectEnabled: bool,
    refreshEnabled: bool)

  /** The combo entry for camera `i`. */
  function CameraLabel(i: nat): (r: string)
    ensures |r| > 7 && r[..7] == "Camera "
    ensures AllDigits(r[7..]) && (|r| > 8 ==> r[7] != '0')
  {
    var r := "Camera " + NatToString(i);
    assert r[7..] == NatToString(i);
    r
  }

  function Labels(cameras: seq<nat>): (r: seq<string>)
    ensures |r| == |cameras|
    ensures forall i :: 0 <= i < |r| ==> r[i] == CameraLabel(cameras[i])
  {
    seq(|cameras|, i requires 0 <= i < |cameras| => CameraLabel(cameras[i]))
  }

  /** `currentText()`: the selected entry, or the empty string. */
  function CurrentText(d: Dock): (r: string)
    ensures r == "" || r in d.entries
    ensures 0 <= d.current < |d.entries| ==> r == d.entries[d.current]
    ensures (d.current < 0 || |d.entries| <= d.current) ==> r == ""
  {
    if 0 <= d.current < |d.entries| then d.entries[d.current] else ""
  }

  /** The number `connect_button_clicked` parses out of a combo entry: the
      first run of digits, or `None` where the parse raises `IndexError`. */
  function ParseCameraNo(text: string): (r: Option<nat>)
    ensures r.None? <==> NoDigits(text)
    ensures r.Some? ==>
      var start := FirstDigitAt(text).value;
      exists stop :: start < stop <= |text| && AllDigits(text[start..stop])
        && (stop == |text| || !IsDigit(text[stop]))
        && r.value == ParseDigits(text[start..stop])
  {
    match FirstDigitRun(text)
    case None => None
    case Some(run) => Some(ParseDigits(run))
  }

  /** Every label parses back to its camera number. */
  lemma {:induction false} LabelRoundTrip(i: nat)
    ensures ParseCameraNo(CameraLabel(i)) == Some(i)
  {
    var prefix := "Camera ";
    assert NoDigits(prefix);
    FirstRunAfterPrefix(prefix, NatToString(i));
    ParseNatToString(i);
  }

  /** `refresh_devices`: replace the entries with one label per probed
      camera, in probe order; the combo then selects the first entry, unless
      the remembered non-zero camera number is among the probed ones, which
      is reselected. The buttons are untouched. */
  function Refresh(d: Dock, opens: nat -> bool): (r: Dock)
    ensures r.cameras == OpencvCamera.Probe(opens, 0, ProbeLimit)
    ensures r.entries == Labels(r.cameras)
    ensures r.cameraNo == d.cameraNo
    ensures r.connectEnabled == d.connectEnabled && r.refreshEnabled == d.refreshEnabled
    ensures d.cameraNo != 0 && d.cameraNo in r.cameras ==> CurrentText(r) == CameraLabel(d.cameraNo as nat)
    ensures !(d.cameraNo != 0 && d.cameraNo in r.cameras) ==>
      CurrentText(r) == if |r.cameras| == 0 then "" else CameraLabel(r.cameras[0])
  {
    var cameras := OpencvCamera.Probe(opens, 0, ProbeLimit);
    var entries := Labels(cameras);
    var first := if |entries| == 0 then -1 else 0;
    var current :=
      if d.cameraNo != 0 && d.cameraNo in cameras then
        var wanted := CameraLabel(d.cameraNo as nat);
        assert wanted in entries by {
          var j :| 0 <= j < |cameras| && cameras[j] == d.cameraNo;
          assert entries[j] == wanted;
        }
        FirstIndex(entries, wanted) as int
      else first;
    Dock(cameras, d.cameraNo, entries, current, d.connectEnabled, d.refreshEnabled)
  }

  /** The dock as its constructor leaves it: nothing remembered, both buttons
      enabled, and one refresh done. */
  function Init(opens: nat -> bool): (r: Dock)
    ensures r.connectEnabled && r.refreshEnabled
    ensures r.cameraNo == 0
    ensures r.cameras == OpencvCamera.Probe(opens, 0, ProbeLimit)
    ensures r.entries == Labels(r.cameras)
    ensures r.current == if |r.cameras| == 0 then -1 else 0
    ensures CurrentText(r) == if |r.cameras| == 0 then "" else CameraLabel(0)
  {
    OpencvCamera.ProbeIsRange(opens, 0, ProbeLimit);
    Refresh(Dock([], 0, [], -1, true, true), opens)
  }

  /** What a click on the connect button leads to: the dock afterwards and
      the camera number emitted, `None` when the click raised instead. */
  datatype Clicked = Clicked(dock: Dock, emitted: Option<nat>)

  /** `connect_button_clicked` as written: both buttons are disabled first,
      then the number is parsed from the current text and emitted. */
  function Connect(d: Dock): (r: Clicked)
    ensures !r.dock.connectEnabled && !r.dock.refreshEnabled
    ensures r.emitted == ParseCameraNo(CurrentText(d))
    ensures r.dock == d.(connectEnabled := false, refreshEnabled := false)
  {
    Clicked(d.(connectEnabled := false, refreshEnabled := false), ParseCameraNo(CurrentText(d)))
  }

  /** With no camera found the combo is empty, so a click disables both
      buttons and raises before anything is emitted: nothing can enable them
      again. */
  lemma {:induction false} ConnectWithoutCamerasLocksButtons(d: Dock, opens: nat -> bool)
    requires !opens(0)
    ensures var r := Connect(Refresh(d, opens));
      r.emitted.None? && !r.dock.connectEnabled && !r.dock.refreshEnabled
  {
    var cleared := Refresh(d, opens);
    assert cleared.cameras == [];
    assert CurrentText(cleared) == "";
    assert NoDigits("");
  }

  /** `connect_button_clicked` as evidently intended: a click that yields no
      camera number leaves the dock alone. */
  function ConnectChecked(d: Dock): (r: Clicked)
    ensures r.emitted == ParseCameraNo(CurrentText(d))
    ensures r.emitted.Some? ==> r.dock == d.(connectEnabled := false, refreshEnabled := false)
    ensures r.emitted.None? ==> r.dock == d
  {
    match ParseCameraNo(CurrentText(d))
    case None => Clicked(d, None)
    case Some(n) => Clicked(d.(connectEnabled := false, refreshEnabled := false), Some(n))
  }

  /** With the check in place, a click with no camera leaves both buttons as
      they were. */
  lemma {:induction false} ConnectCheckedWithoutCamerasKeepsButtons(d: Dock, opens: nat -> bool)
    requires !opens(0)
    ensures var before := Refresh(d, opens);
      var r := ConnectChecked(before);
      r.emitted.None? && r.dock.connectEnabled == d.connectEnabled && r.dock.refreshEnabled == d.refreshEnabled
  {
    var cleared := Refresh(d, opens);
    assert cleared.cameras == [];
    assert CurrentText(cleared) == "";
    assert NoDigits("");
  }

  /** `camera_closed`: both buttons enabled again. */
  function CameraClosed(d: Dock): (r: Dock)
    ensures r.connectEnabled && r.refreshEnabled
    ensures r.entries == d.entries && r.current == d.current && r.cameras == d.cameras && r.cameraNo == d.cameraNo
  {
    d.(connectEnabled := true, refreshEnabled := true)
  }

  /** After a refresh, connecting emits the number of the selected camera. */
  lemma {:induction false} ConnectEmitsSelectedCamera(d: Dock, opens: nat -> bool)
    requires opens(0)
    ensures var r := Refresh(d, opens);
      0 <= r.current < |r.cameras| && ConnectChecked(r).emitted == Some(r.cameras[r.current])
  {
    OpencvCamera.ProbeIsRange(opens, 0, ProbeLimit);
    var r := Refresh(d, opens);
    assert r.cameras[0] == 0;
    if d.cameraNo != 0 && d.cameraNo in r.cameras {
      var wanted := CameraLabel(d.cameraNo as nat);
      assert r.entries[r.current] == wanted;
      assert r.cameras[r.current] == d.cameraNo by {
        var j :| 0 <= j < |r.cameras| && r.cameras[j] == d.cameraNo;
        assert r.cameras[j] == j;
        LabelRoundTrip(r.cameras[r.current]);
        LabelRoundTrip(d.cameraNo as nat);
      }
    }
    LabelRoundTrip(r.cameras[r.current]);
  }

  /** A connect that opened a camera, followed by the camera closing, gives
      back the dock with both buttons enabled. */
  lemma {:induction false} ConnectThenCloseEnablesAll(d: Dock)
    requires d.connectEnabled && d.refreshEnabled
    ensures CameraClosed(ConnectChecked(d).dock) == d
  {
  }
}

=== FILE: flow_layout.dfy ===
/** The line-wrapping layout that arranges the thumbnails
    (custom_components/flow_layout.py, a port of Qt's flow layout example).
    Widget style spacing and size hints are plain values here. */
module FlowLayout {
  import opened Base

  datatype Size = Size(width: int, height: int)

  /** An integer rectangle with Qt's `QRect` conventions: `Right()` is the
      last column inside the rectangle, `x + width - 1`. */
  datatype Rect = Rect(x: int, y: int, width: int, height: int) {
    function Right(): int { x + width - 1 }
  }

  /** One managed item: its size hint, its minimum size, and the extra
      horizontal and vertical spacing its widget's style asks for. */
  datatype LayoutItem = LayoutItem(hint: Size, minimum: Size, styleSpaceX: int, styleSpaceY: int)

  /** The layout: its item list, its own spacing and its top contents margin. */
  datatype Layout = Layout(items: seq<LayoutItem>, spacing: int, marginTop: int)

  function Max(a: int, b: int): int { if a < b then b else a }

  /** `addItem`: append at the end. */
  function AddItem(l: Layout, item: LayoutItem): (r: Layout)
    ensures Count(r) == Count(l) + 1
    ensures ItemAt(r, Count(l)) == Some(item)
    ensures forall i :: 0 <= i < Count(l) ==> ItemAt(r, i) == ItemAt(l, i)
    ensures r.spacing == l.spacing && r.marginTop == l.marginTop
  {
    l.(items := l.items + [item])
  }

  /** `count`: the number of managed items. */
  function Count(l: Layout): (r: nat)
    ensures r == |l.items|
    ensures r == 0 <==> l.items == []
  {
    |l.items|
  }

  /** `itemAt`: the item at `index`, or `None` outside `0 <= index < count`. */
  function ItemAt(l: Layout, index: int): (r: Option<LayoutItem>)
    ensures r.Some? <==> 0 <= index < Count(l)
    ensures r.Some? ==> r.value == l.items[index]
  {
    if 0 <= index < |l.items| then Some(l.items[index]) else None
  }

  /** `takeAt`: remove and return the item at `index`; out of range nothing
      changes and `None` comes back. */
  function TakeAt(l: Layout, index: int): (r: (Layout, Option<LayoutItem>))
    ensures r.1 == ItemAt(l, index)
    ensures r.1.None? ==> r.0 == l
    ensures r.1.Some? ==> Count(r.0) == Count(l) - 1
    ensures r.1.Some? ==> forall i :: 0 <= i < |r.0.items| ==>
      r.0.items[i] == (if i < index then l.items[i] else l.items[i + 1])
    ensures r.0.spacing == l.spacing && r.0.marginTop == l.marginTop
  {
    if 0 <= index < |l.items| then
      var rest := l.items[..index] + l.items[index + 1..];
      assert forall i :: 0 <= i < |rest| ==> rest[i] == (if i < index then l.items[i] else l.items[i + 1]);
      (l.(items := rest), Some(l.items[index]))
    else
      (l, None)
  }

  /** `takeAt` undoes `addItem`. */
  lemma {:induction false} TakeAtUndoesAddItem(l: Layout, item: LayoutItem)
    ensures TakeAt(AddItem(l, item), Count(l)) == (l, Some(item))
  {
    var grown := l.items + [item];
    assert grown[..|l.items|] == l.items;
    assert grown[|l.items| + 1..] == [];
    assert grown[..|l.items|] + grown[|l.items| + 1..] == l.items;
  }

  /** The finaliser's drain: `takeAt(0)` until it returns nothing. It hands
      back every item, in order, and leaves the list empty. */
  method Drain(l: Layout) returns (taken: seq<LayoutItem>, r: Layout)
    ensures taken == l.items
    ensures Count(r) == 0
    ensures r.spacing == l.spacing && r.marginTop == l.marginTop
  {
    taken := [];
    DrainStep(l, [], l);
    var first := TakeAt(l, 0);
    var item;
    r, item := first.0, first.1;
    while item.Some?
      invariant item.Some? ==> taken + [item.value] + r.items == l.items
      invariant item.None? ==> taken == l.items && r.items == []
      invariant r.spacing == l.spacing && r.marginTop == l.marginTop
      decreases |r.items|, item.Some?
    {
      taken := taken + [item.value];
      DrainStep(l, taken, r);
      var next := TakeAt(r, 0);
      r, item := next.0, next.1;
    }
  }

  /** One `takeAt(0)` of the drain: with `taken` and the rest making up the
      original list, the popped item moves over to `taken`. */
  lemma {:induction false} DrainStep(l: Layout, taken: seq<LayoutItem>, r: Layout)
    requires taken + r.items == l.items
    ensures var next := TakeAt(r, 0);
      && (next.1.Some? ==> taken + [next.1.value] + next.0.items == l.items && |next.0.items| < |r.items|)
      && (next.1.None? ==> taken == l.items && next.0.items == [])
      && next.0.spacing == r.spacing && next.0.marginTop == r.marginTop
  {
    if |r.items| > 0 {
      var rest := r.items[1..];
      assert r.items[..0] + rest == rest;
      assert TakeAt(r, 0) == (r.(items := rest), Some(r.items[0]));
      assert r.items == [r.items[0]] + rest;
    } else {
      assert taken + r.items == taken;
    }
  }

  /** `minimumSize`: start from Qt's invalid `QSize()` of `(-1, -1)`, expand it
      to every item's minimum size, then add twice the top margin to both
      sides. */
  function MinimumSize(l: Layout): (s: Size)
    ensures forall i :: 0 <= i < |l.items| ==>
      s.width >= l.items[i].minimum.width + 2 * l.marginTop &&
      s.height >= l.items[i].minimum.height + 2 * l.marginTop
    ensures s.width >= -1 + 2 * l.marginTop && s.height >= -1 + 2 * l.marginTop
    ensures s.width == -1 + 2 * l.marginTop ||
      exists i :: 0 <= i < |l.items| && s.width == l.items[i].minimum.width + 2 * l.marginTop
    ensures s.height == -1 + 2 * l.marginTop ||
      exists i :: 0 <= i < |l.items| && s.height == l.items[i].minimum.height + 2 * l.marginTop
  {
    var m := Expanded(Size(-1, -1), l.items);
    Size(m.width + 2 * l.marginTop, m.height + 2 * l.marginTop)
  }

  /** `QSize.expandedTo` folded over the items' minimum sizes. */
  function Expanded(acc: Size, items: seq<LayoutItem>): (s: Size)
    ensures s.width >= acc.width && s.height >= acc.height
    ensures forall i :: 0 <= i < |items| ==>
      s.width >= items[i].minimum.width && s.height >= items[i].minimum.height
    ensures s.width == acc.width || exists i :: 0 <= i < |items| && s.width == items[i].minimum.width
    ensures s.height == acc.height || exists i :: 0 <= i < |items| && s.height == items[i].minimum.height
    decreases |items|
  {
    if |items| == 0 then acc
    else
      var next := Size(Max(acc.width, items[0].minimum.width), Max(acc.height, items[0].minimum.height));
      var s := Expanded(next, items[1..]);
      assert forall i :: 0 <= i < |items[1..]| ==> items[1..][i] == items[i + 1];
      s
  }

  /** The placement cursor of `_do_layout`: the next x, the current line's y
      and the tallest hint on the current line so far. */
  datatype Cursor = Cursor(x: int, y: int, lineHeight: int)

  /** The lowest row the current line reaches. */
  function Bottom(c: Cursor): int { c.y + c.lineHeight }

  /** A line break happens when the item would pass the rectangle's right
      edge and the current line already holds something of positive height. */
  predicate Wraps(rect: Rect, c: Cursor, item: LayoutItem) {
    c.x + item.hint.width > rect.Right() && c.lineHeight > 0
  }

  /** Place one item: the geometry it gets and the cursor after it. */
  function Step(rect: Rect, spacing: int, c: Cursor, item: LayoutItem): (r: (Rect, Cursor))
    ensures Wraps(rect, c, item) ==> r.0.x == rect.x && r.0.y == Bottom(c) + spacing + item.styleSpaceY
    ensures !Wraps(rect, c, item) ==> r.0.x == c.x && r.0.y == c.y
    ensures r.0.width == item.hint.width && r.0.height == item.hint.height
    ensures r.1.y == r.0.y
    ensures r.1.x == r.0.x + item.hint.width + spacing + item.styleSpaceX
    ensures r.1.lineHeight == Max(if Wraps(rect, c, item) then 0 else c.lineHeight, item.hint.height)
  {
    var spaceX := spacing + item.styleSpaceX;
    var spaceY := spacing + item.styleSpaceY;
    var start := if Wraps(rect, c, item) then Cursor(rect.x, c.y + c.lineHeight + spaceY, 0) else c;
    (Rect(start.x, start.y, item.hint.width, item.hint.height),
     Cursor(start.x + item.hint.width + spaceX, start.y, Max(start.lineHeight, item.hint.height)))
  }

  /** The outcome of a layout pass: the cursor after the last item and every
      item's geometry, in item order. */
  datatype Placement = Placement(last: Cursor, geometry: seq<Rect>)

  function Run(rect: Rect, spacing: int, c: Cursor, items: seq<LayoutItem>): (p: Placement)
    ensures |p.geometry| == |items|
    decreases |items|
  {
    if |items| == 0 then Placement(c, [])
    else
      var (g, c') := Step(rect, spacing, c, items[0]);
      var rest := Run(rect, spacing, c', items[1..]);
      Placement(rest.last, [g] + rest.geometry)
  }

  lemma {:induction false} RunUnfold(rect: Rect, spacing: int, c: Cursor, items: seq<LayoutItem>)
    requires |items| > 0
    ensures var (g, c') := Step(rect, spacing, c, items[0]);
      && Run(rect, spacing, c, items).last == Run(rect, spacing, c', items[1..]).last
      && Run(rect, spacing, c, items).geometry == [g] + Run(rect, spacing, c', items[1..]).geometry
  {
  }

  /** One step of a pass moves the next item's geometry from the rest of
      the run to the geometries placed so far. */
  lemma {:induction false} RunAdvance(rect: Rect, spacing: int, c: Cursor, items: seq<LayoutItem>, i: nat, placed: seq<Rect>)
    requires i < |items|
    ensures var (g, c') := Step(rect, spacing, c, items[i]);
      && Run(rect, spacing, c, items[i..]).last == Run(rect, spacing, c', items[i + 1..]).last
      && placed + Run(rect, spacing, c, items[i..]).geometry == (placed + [g]) + Run(rect, spacing, c', items[i + 1..]).geometry
  {
    RunUnfold(rect, spacing, c, items[i..]);
    assert items[i..][0] == items[i];
    assert items[i..][1..] == items[i + 1..];
  }

  function Start(rect: Rect): Cursor { Cursor(rect.x, rect.y, 0) }

  /** The placement of a whole layout pass over `rect`. */
  function Arrange(l: Layout, rect: Rect): Placement {
    Run(rect, l.spacing, Start(rect), l.items)
  }

  /** The height `_do_layout` reports. */
  function LayoutHeight(l: Layout, rect: Rect): int {
    Bottom(Arrange(l, rect).last) - rect.y
  }

  /** `_do_layout`: walk the items once, wrapping lines as needed; assign the
      geometries unless `testOnly`; report the height used. */
  method DoLayout(l: Layout, rect: Rect, testOnly: bool) returns (height: int, geometries: seq<Rect>)
    ensures height == LayoutHeight(l, rect)
    ensures testOnly ==> geometries == []
    ensures !testOnly ==> geometries == Arrange(l, rect).geometry
  {
    var x := rect.x;
    var y := rect.y;
    var lineHeight := 0;
    var spacing := l.spacing;
    geometries := [];
    ghost var placed: seq<Rect> := [];
    var i := 0;
    while i < |l.items|
      invariant 0 <= i <= |l.items|
      invariant Run(rect, spacing, Cursor(x, y, lineHeight), l.items[i..]).last == Arrange(l, rect).last
      invariant placed + Run(rect, spacing, Cursor(x, y, lineHeight), l.items[i..]).geometry == Arrange(l, rect).geometry
      invariant geometries == if testOnly then [] else placed
    {
      var item := l.items[i];
      ghost var before := Cursor(x, y, lineHeight);
      RunAdvance(rect, spacing, before, l.items, i, placed);
      var spaceX := spacing + item.styleSpaceX;
      var spaceY := spacing + item.styleSpaceY;
      var nextX := x + item.hint.width + spaceX;
      if nextX - spaceX > rect.Right() && lineHeight > 0 {
        x := rect.x;
        y := y + lineHeight + spaceY;
        nextX := x + item.hint.width + spaceX;
        lineHeight := 0;
      }
      var g := Rect(x, y, item.hint.width, item.hint.height);
      placed := placed + [g];
      if !testOnly {
        geometries := geometries + [g];
      }
      x := nextX;
      lineHeight := Max(lineHeight, item.hint.height);
      i := i + 1;
      assert Step(rect, spacing, before, item) == (g, Cursor(x, y, lineHeight));
    }
    height := y + lineHeight - rect.y;
  }

  /** `heightForWidth`: a measuring pass over `Rect(0, 0, width, 0)`; it
      reports the same height a real pass over that rectangle uses. */
  method HeightForWidth(l: Layout, width: int) returns (height: int)
    ensures height == LayoutHeight(l, Rect(0, 0, width, 0))
    ensures l.items == [] ==> height == 0
  {
    var unused;
    height, unused := DoLayout(l, Rect(0, 0, width, 0), true);
  }

  /** Heights are non-negative and no item is spaced upwards. */
  predicate Upright(spacing: int, items: seq<LayoutItem>) {
    forall i :: 0 <= i < |items| ==> items[i].hint.height >= 0 && spacing + items[i].styleSpaceY >= 0
  }

  /** The first item always sits at the rectangle's top-left corner. */
  lemma {:induction false} FirstItemAtOrigin(l: Layout, rect: Rect)
    requires |l.items| > 0
    ensures Arrange(l, rect).geometry[0].x == rect.x
    ensures Arrange(l, rect).geometry[0].y == rect.y
  {
    assert !Wraps(rect, Start(rect), l.items[0]);
  }

  /** The vertical facts of one pass: lines only move down, and the last
      cursor's bottom reaches every placed item's bottom. */
  lemma {:induction false} RunVertical(rect: Rect, spacing: int, c: Cursor, items: seq<LayoutItem>)
    requires c.lineHeight >= 0
    requires Upright(spacing, items)
    ensures var p := Run(rect, spacing, c, items);
      && p.last.lineHeight >= 0
      && p.last.y >= c.y
      && Bottom(p.last) >= Bottom(c)
      && (forall k :: 0 <= k < |items| ==> c.y <= p.geometry[k].y <= p.last.y)
      && (forall k :: 0 <= k < |items| ==> p.geometry[k].y + p.geometry[k].height <= Bottom(p.last))
      && (forall j, k :: 0 <= j < k < |items| ==> p.geometry[j].y <= p.geometry[k].y)
    decreases |items|
  {
    if |items| > 0 {
      var (g, c') := Step(rect, spacing, c, items[0]);
      assert Upright(spacing, items[1..]) by {
        forall i | 0 <= i < |items[1..]| ensures items[1..][i] == items[i + 1] { }
      }
      RunVertical(rect, spacing, c', items[1..]);
      var p := Run(rect, spacing, c, items);
      var rest := Run(rect, spacing, c', items[1..]);
      assert p.geometry == [g] + rest.geometry;
      forall k | 0 < k < |items|
        ensures p.geometry[k] == rest.geometry[k - 1]
      {
      }
    }
  }

  /** Placed lines never move up, every item fits inside the reported
      height, and that height is never negative. */
  lemma {:induction false} ArrangeIsOrdered(l: Layout, rect: Rect)
    requires Upright(l.spacing, l.items)
    ensures var p := Arrange(l, rect);
      && (forall j, k :: 0 <= j < k < |l.items| ==> p.geometry[j].y <= p.geometry[k].y)
      && (forall k :: 0 <= k < |l.items| ==>
            rect.y <= p.geometry[k].y && p.geometry[k].y + p.geometry[k].height - rect.y <= LayoutHeight(l, rect))
      && LayoutHeight(l, rect) >= 0
  {
    RunVertical(rect, l.spacing, Start(rect), l.items);
  }

  /** An item geometry that either starts at the rectangle's left edge or
      ends strictly before its right edge. */
  predicate FitsOrStartsLine(rect: Rect, g: Rect) {
    g.x == rect.x || g.x + g.width <= rect.Right()
  }

  /** With positive heights, an item either starts a line at the left edge or
      ends strictly before the rectangle's right edge. */
  lemma {:induction false} RunFits(rect: Rect, spacing: int, c: Cursor, items: seq<LayoutItem>)
    requires c.lineHeight > 0 || c.x == rect.x
    requires forall i :: 0 <= i < |items| ==> items[i].hint.height > 0
    ensures forall k :: 0 <= k < |items| ==> FitsOrStartsLine(rect, Run(rect, spacing, c, items).geometry[k])
    decreases |items|
  {
    if |items| > 0 {
      var (g, c') := Step(rect, spacing, c, items[0]);
      assert c'.lineHeight > 0;
      assert forall i :: 0 <= i < |items[1..]| ==> items[1..][i].hint.height > 0 by {
        forall i | 0 <= i < |items[1..]| ensures items[1..][i] == items[i + 1] { }
      }
      RunFits(rect, spacing, c', items[1..]);
      RunUnfold(rect, spacing, c, items);
      assert FitsOrStartsLine(rect, g);
    }
  }

  lemma {:induction false} ArrangeFits(l: Layout, rect: Rect)
    requires forall i :: 0 <= i < |l.items| ==> l.items[i].hint.height > 0
    ensures forall k :: 0 <= k < |l.items| ==> FitsOrStartsLine(rect, Arrange(l, rect).geometry[k])
  {
    RunFits(rect, l.spacing, Start(rect), l.items);
  }
}

=== FILE: image_display.dfy ===
/** One thumbnail in the image list (`ImageDisplay` in
    display_widgets/image_display.py): the image it shows, its label, the
    detected pattern points and the image shape the calibration reads. */
module ImageDisplay {
  import opened Base

  /** A point of the calibration pattern in its own frame (z = 0 for a planar target). */
  datatype Point3 = Point3(x: real, y: real, z: real)
  /** A detected feature point in pixel coordinates. */
  datatype Point2 = Point2(u: real, v: real)

  /** A raster as far as this model needs it: the numpy dimensions
      `(height, width[, channels])` and an opaque identity for its pixels. */
  datatype Image = Image(dims: seq<nat>, pixels: nat)

  /** The state kept by one item. `key` stands for the widget object's
      identity: thumbnails define no equality of their own, so two of them
      are the same exactly when they are the same object. */
  datatype Item = Item(
    key: nat,
    rawImage: Option<Image>,
    image: Option<Image>,
    text: Option<string>,
    width: real,
    objpoints: Option<seq<Point3>>,
    imgpoints: Option<seq<Point2>>,
    shape: Option<seq<nat>>)

  /** What the detector hands back to `points_found`: whether it found the
      pattern, and the two point lists. */
  datatype Detection = Detection(ret: bool, objpoints: seq<Point3>, imgpoints: seq<Point2>)

  /** The thumbnail width a fresh item starts with. */
  const InitialWidth: real := 200.0

  /** Object points and image points are either both present or both absent. */
  predicate PointsPaired(it: Item) {
    it.objpoints.None? <==> it.imgpoints.None?
  }

  /** The item holds a usable detection: both point lists are set. */
  predicate HasPoints(it: Item) {
    it.objpoints.Some? && it.imgpoints.Some?
  }

  function Reverse<T>(s: seq<T>): (r: seq<T>)
    ensures |r| == |s|
    ensures forall i :: 0 <= i < |s| ==> r[i] == s[|s| - 1 - i]
  {
    if |s| == 0 then [] else Reverse(s[1..]) + [s[0]]
  }

  /** numpy's `image.shape[:2][::-1]`: the first two dimensions, reversed. */
  function ShapeOf(img: Image): (shape: seq<nat>)
    ensures |img.dims| >= 2 ==> shape == [img.dims[1], img.dims[0]]
    ensures |img.dims| < 2 ==> shape == img.dims
  {
    var firstTwo := if |img.dims| < 2 then img.dims else img.dims[..2];
    Reverse(firstTwo)
  }

  /** A freshly constructed item: no image, label, points or shape, and the
      initial thumbnail width. */
  function New(key: nat): (it: Item)
    ensures it.key == key
    ensures it.objpoints.None? && it.imgpoints.None? && it.shape.None?
    ensures it.rawImage.None? && it.image.None? && it.text.None?
    ensures PointsPaired(it) && !HasPoints(it)
    ensures it.width == InitialWidth
  {
    Item(key, None, None, None, InitialWidth, None, None, None)
  }

  /** `set_image`: show `image`; unless it is a processed overlay it also
      becomes the raw image whose shape calibration uses; a label of `None`
      keeps the previous one. */
  function SetImage(it: Item, image: Image, text: Option<string>, processed: bool): (r: Item)
    ensures r.image == Some(image)
    ensures !processed ==> r.rawImage == Some(image) && r.shape == Some(ShapeOf(image))
    ensures processed ==> r.rawImage == it.rawImage && r.shape == it.shape
    ensures text.Some? ==> r.text == text
    ensures text.None? ==> r.text == it.text
    ensures r.key == it.key && r.width == it.width
    ensures r.objpoints == it.objpoints && r.imgpoints == it.imgpoints
  {
    var shown := it.(image := Some(image));
    var raw := if processed then shown else shown.(rawImage := Some(image), shape := Some(ShapeOf(image)));
    if text.Some? then raw.(text := text) else raw
  }

  /** `scale_image_to_width`: only the display width changes. */
  function ScaleToWidth(it: Item, width: real): (r: Item)
    ensures r.width == width
    ensures r.key == it.key && r.objpoints == it.objpoints && r.imgpoints == it.imgpoints && r.shape == it.shape
    ensures r.rawImage == it.rawImage && r.image == it.image && r.text == it.text
  {
    it.(width := width)
  }

  /** `points_found`: store the detection's points on success, clear both on
      failure, and redisplay the overlay the drawing code produced (`overlay`)
      as a processed image. */
  function PointsFound(it: Item, d: Detection, overlay: Image): (r: Item)
    ensures d.ret ==> r.objpoints == Some(d.objpoints) && r.imgpoints == Some(d.imgpoints)
    ensures !d.ret ==> r.objpoints.None? && r.imgpoints.None?
    ensures HasPoints(r) <==> d.ret
    ensures PointsPaired(r)
    ensures r.shape == it.shape && r.rawImage == it.rawImage
    ensures r.text == it.text && r.key == it.key && r.width == it.width
    ensures r.image == Some(overlay)
  {
    var stored :=
      if d.ret then it.(objpoints := Some(d.objpoints), imgpoints := Some(d.imgpoints))
      else it.(objpoints := None, imgpoints := None);
    SetImage(stored, overlay, None, true)
  }

  /** Any sequence of `set_image` and `points_found` calls starting from a
      fresh item keeps the points paired and never changes the shape after the
      first raw image. */
  datatype Event = Show(image: Image, text: Option<string>, processed: bool)
                 | Found(d: Detection, overlay: Image)

  function Apply(it: Item, e: Event): Item {
    match e
    case Show(image, text, processed) => SetImage(it, image, text, processed)
    case Found(d, overlay) => PointsFound(it, d, overlay)
  }

  function Replay(it: Item, events: seq<Event>): Item
    decreases |events|
  {
    if |events| == 0 then it else Replay(Apply(it, events[0]), events[1..])
  }

  lemma {:induction false} ReplayKeepsPointsPaired(it: Item, events: seq<Event>)
    requires PointsPaired(it)
    ensures PointsPaired(Replay(it, events))
    decreases |events|
  {
    if |events| > 0 {
      ReplayKeepsPointsPaired(Apply(it, events[0]), events[1..]);
    }
  }

  /** Detections alone never move the shape: only an unprocessed `set_image` does. */
  lemma {:induction false} DetectionsKeepShape(it: Item, events: seq<Event>)
    requires forall i :: 0 <= i < |events| ==> events[i].Found? || events[i].processed
    ensures Replay(it, events).shape == it.shape
    ensures Replay(it, events).rawImage == it.rawImage
    decreases |events|
  {
    if |events| > 0 {
      DetectionsKeepShape(Apply(it, events[0]), events[1..]);
    }
  }
}

=== FILE: main_widget.dfy ===
/** The calibration session kept by the main window (main_widget.py): the
    list of image items, the thumbnail width, the dataset handed to the
    solver, the result fields, and the record a save writes. The OpenCV
    solvers, the file dialog and the pixel work are parameters. */
module MainWidget {
  import opened Base
  import opened ImageDisplay
  import CalibrateDock

  type Matrix = CalibrateDock.Matrix

  datatype Vec3 = Vec3(a: real, b: real, c: real)

  /** What `cv.calibrateCamera` and `cv.fisheye.calibrate` return: RMS error,
      camera matrix, distortion coefficients, and one rotation and one
      translation per image. */
  datatype Solution = Solution(rms: real, k: Matrix, d: Matrix, rotations: seq<Vec3>, translations: seq<Vec3>)

  /** The arguments of the standard solver: per-image object points, image
      points, and the image size. */
  datatype StandardInput = StandardInput(objpoints: seq<seq<Point3>>, imgpoints: seq<seq<Point2>>, size: Option<seq<nat>>)

  /** The fisheye solver takes every object point wrapped in a singleton
      dimension, shape `(N, 1, 3)` per image. */
  datatype FisheyeInput = FisheyeInput(objpoints: seq<seq<seq<Point3>>>, imgpoints: seq<seq<Point2>>, size: Option<seq<nat>>)

  /** The two OpenCV solvers; `Raise` stands for `cv.error`. */
  datatype Solvers = Solvers(standard: StandardInput -> Result<Solution>, fisheye: FisheyeInput -> Result<Solution>)

  datatype Modifier = Shift | Control | Alt | Meta | Keypad | GroupSwitch

  /** The main window's session state. `resultsText` is the calibrate dock's
      results label, which this window writes. */
  datatype Session = Session(
    items: seq<Item>,
    imageWidth: real,
    fisheye: Option<bool>,
    rmsError: Option<real>,
    intrinsicMatrix: Option<Matrix>,
    distortionCoeffs: Option<Matrix>,
    rotationVecs: Option<seq<Vec3>>,
    translationVecs: Option<seq<Vec3>>,
    savePath: Option<string>,
    resultsText: string)

  /** The window as constructed: no items, width 100, no results. */
  function Init(): (s: Session)
    ensures Valid(s) && NoResults(s) && s.items == []
    ensures s.imageWidth == 100.0
  {
    Session([], 100.0, None, None, None, None, None, None, None, "")
  }

  /** Every result field and the save path are unset and the label is empty. */
  predicate NoResults(s: Session) {
    && s.fisheye.None? && s.rmsError.None? && s.intrinsicMatrix.None?
    && s.distortionCoeffs.None? && s.rotationVecs.None? && s.translationVecs.None?
    && s.savePath.None? && s.resultsText == ""
  }

  /** All six fields `save_calibration` insists on are set. */
  predicate AllResultsSet(s: Session) {
    && s.fisheye.Some? && s.rmsError.Some? && s.intrinsicMatrix.Some?
    && s.distortionCoeffs.Some? && s.rotationVecs.Some? && s.translationVecs.Some?
  }

  function Keys(items: seq<Item>): seq<nat> {
    seq(|items|, i requires 0 <= i < |items| => items[i].key)
  }

  /** What every reachable session satisfies: items are distinct objects,
      their points are paired, each has the shape of its raw image, and
      every thumbnail has the session's non-negative width. */
  predicate Valid(s: Session) {
    && (forall i, j :: 0 <= i < j < |s.items| ==> s.items[i].key != s.items[j].key)
    && (forall i :: 0 <= i < |s.items| ==> PointsPaired(s.items[i]))
    && (forall i :: 0 <= i < |s.items| ==>
          s.items[i].rawImage.Some? && s.items[i].shape == Some(ShapeOf(s.items[i].rawImage.value)))
    && (forall i :: 0 <= i < |s.items| ==> s.items[i].width == s.imageWidth)
    && s.imageWidth >= 0.0
  }

  // ---------------------------------------------------------------------
  // The image list

  /** `add_image`: a new item showing `img` under `text`, scaled to the
      current width, appended at the end. Its detection arrives later
      through `PointsDelivered`. `key` is the new object's identity. */
  function AddImage(s: Session, img: Image, text: string, key: nat): (r: Session)
    requires key !in Keys(s.items)
    ensures |r.items| == |s.items| + 1 && r.items[..|s.items|] == s.items
    ensures var it := r.items[|s.items|];
      && it.key == key && it.text == Some(text) && it.shape == Some(ShapeOf(img))
      && it.rawImage == Some(img) && it.image == Some(img)
      && !HasPoints(it) && it.width == s.imageWidth
    ensures Valid(s) ==> Valid(r)
    ensures r == s.(items := r.items)
  {
    var it := ScaleToWidth(SetImage(New(key), img, Some(text), false), s.imageWidth);
    var r := s.(items := s.items + [it]);
    assert forall i :: 0 <= i < |s.items| ==> s.items[i].key == Keys(s.items)[i];
    r
  }

  /** A detection reaching the item with identity `key` (`points_found`). */
  function PointsDelivered(s: Session, key: nat, d: Detection, overlay: Image): (r: Session)
    ensures |r.items| == |s.items|
    ensures forall i :: 0 <= i < |s.items| ==>
      r.items[i] == if s.items[i].key == key then PointsFound(s.items[i], d, overlay) else s.items[i]
    ensures Valid(s) ==> Valid(r)
    ensures r == s.(items := r.items)
  {
    var items := seq(|s.items|, i requires 0 <= i < |s.items| =>
      if s.items[i].key == key then PointsFound(s.items[i], d, overlay) else s.items[i]);
    s.(items := items)
  }

  /** `remove_image` for the item whose close button was clicked. The
      handler holds the object itself and thumbnails define no equality, so
      `list.remove` drops the first item with that identity `key`, whatever
      its points or image are by now; with no such item it raises. */
  function RemoveImage(s: Session, key: nat): (r: Result<Session>)
    ensures r.Raise? <==> key !in Keys(s.items)
    ensures r.Raise? ==> r.exception == "ValueError"
    ensures r.Ok? ==> r.value == s.(items := r.value.items)
    ensures r.Ok? ==> Keys(r.value.items) == RemoveFirst(Keys(s.items), key).value
    ensures r.Ok? ==> exists i :: (0 <= i < |s.items| && s.items[i].key == key && key !in Keys(s.items[..i])
      && r.value.items == s.items[..i] + s.items[i + 1..])
    ensures r.Ok? && Valid(s) ==> key !in Keys(r.value.items)
    ensures r.Ok? && Valid(s) ==> forall k :: 0 <= k < |s.items| && s.items[k].key != key ==> s.items[k] in r.value.items
    ensures r.Ok? && Valid(s) ==> Valid(r.value)
  {
    if key !in Keys(s.items) then Raise("ValueError")
    else
      var i := FirstIndex(Keys(s.items), key);
      var rest := s.items[..i] + s.items[i + 1..];
      KeysOfRemoval(s.items, i);
      if Valid(s) then
        RemoveFirstDistinct(Keys(s.items), key);
        RemoveKeepsValid(s, i);
        Ok(s.(items := rest))
      else
        Ok(s.(items := rest))
  }

  /** The identities left after taking item `i` out are the list's
      identities with entry `i` taken out. */
  lemma {:induction false} KeysOfRemoval(items: seq<Item>, i: nat)
    requires i < |items|
    ensures Keys(items[..i]) == Keys(items)[..i]
    ensures Keys(items[..i] + items[i + 1..]) == Keys(items)[..i] + Keys(items)[i + 1..]
  {
    var rest := items[..i] + items[i + 1..];
    assert forall a :: 0 <= a < |rest| ==> rest[a] == items[if a < i then a else a + 1];
  }

  lemma {:induction false} RemoveKeepsValid(s: Session, i: nat)
    requires Valid(s)
    requires i < |s.items|
    ensures Valid(s.(items := s.items[..i] + s.items[i + 1..]))
    ensures forall k :: 0 <= k < |s.items| && k != i ==> s.items[k] in s.items[..i] + s.items[i + 1..]
  {
    var rest := s.items[..i] + s.items[i + 1..];
    forall a | 0 <= a < |rest|
      ensures rest[a] == s.items[if a < i then a else a + 1]
    {
    }
    forall k | 0 <= k < |s.items| && k != i
      ensures s.items[k] in rest
    {
      if k < i {
        assert rest[k] == s.items[k];
      } else {
        assert rest[k - 1] == s.items[k];
      }
    }
  }

  /** `clear_scroll_area`: the list ends up empty; nothing else changes. */
  function ClearScrollArea(s: Session): (r: Session)
    ensures r.items == []
    ensures Valid(s) ==> Valid(r)
    ensures r.(items := s.items) == s
  {
    s.(items := [])
  }

  /** `wheelEvent`: with exactly Ctrl held, the width moves by a twelfth of
      the vertical wheel delta, is clamped at zero, and every thumbnail takes
      it; any other modifier state changes nothing. */
  function WheelEvent(s: Session, modifiers: set<Modifier>, deltaY: int): (r: Session)
    ensures modifiers != {Control} ==> r == s
    ensures modifiers == {Control} ==> r.imageWidth >= 0.0
    ensures modifiers == {Control} && s.imageWidth + deltaY as real / 12.0 >= 0.0 ==>
      r.imageWidth == s.imageWidth + deltaY as real / 12.0
    ensures modifiers == {Control} && s.imageWidth + deltaY as real / 12.0 < 0.0 ==> r.imageWidth == 0.0
    ensures r == s.(imageWidth := r.imageWidth, items := r.items)
    ensures |r.items| == |s.items|
    ensures modifiers == {Control} ==> forall i :: 0 <= i < |s.items| ==> r.items[i] == ScaleToWidth(s.items[i], r.imageWidth)
    ensures forall i :: 0 <= i < |s.items| ==> r.items[i].key == s.items[i].key
    ensures modifiers == {Control} ==> forall i :: 0 <= i < |r.items| ==> r.items[i].width == r.imageWidth
    ensures Valid(s) ==> Valid(r)
  {
    if modifiers == {Control} then
      var moved := s.imageWidth + deltaY as real / 12.0;
      var width := if moved < 0.0 then 0.0 else moved;
      var items := seq(|s.items|, i requires 0 <= i < |s.items| => ScaleToWidth(s.items[i], width));
      s.(imageWidth := width, items := items)
    else
      s
  }

  // ---------------------------------------------------------------------
  // The dataset

  /** The items that carry a detection, in list order. */
  function Paired(items: seq<Item>): (r: seq<Item>)
    ensures |r| <= |items|
    ensures forall j :: 0 <= j < |r| ==> HasPoints(r[j])
    decreases |items|
  {
    if |items| == 0 then []
    else
      var front := Paired(items[..|items| - 1]);
      var last := items[|items| - 1];
      if HasPoints(last) then front + [last] else front
  }

  /** The dataset holds exactly the items that have points. */
  lemma {:induction false} PairedMembers(items: seq<Item>)
    ensures forall j :: 0 <= j < |Paired(items)| ==> Paired(items)[j] in items
    ensures forall i :: 0 <= i < |items| && HasPoints(items[i]) ==> items[i] in Paired(items)
    decreases |items|
  {
    if |items| > 0 {
      var front := items[..|items| - 1];
      PairedMembers(front);
      assert forall i :: 0 <= i < |front| ==> items[i] == front[i];
    }
  }

  /** Picking the items with points commutes with joining lists, so the
      dataset keeps the display order. */
  lemma {:induction false} PairedAppend(a: seq<Item>, b: seq<Item>)
    ensures Paired(a + b) == Paired(a) + Paired(b)
    decreases |b|
  {
    if |b| == 0 {
      assert a + b == a;
    } else {
      assert (a + b)[..|a + b| - 1] == a + b[..|b| - 1];
      PairedAppend(a, b[..|b| - 1]);
    }
  }

  /** Taking item `i` out of the list takes exactly its own entry, if it
      has one, out of the dataset; the other entries keep their order. */
  lemma {:induction false} PairedRemoval(items: seq<Item>, i: nat)
    requires i < |items|
    ensures Paired(items) == Paired(items[..i]) + PairedOne(items[i]) + Paired(items[i + 1..])
    ensures Paired(items[..i] + items[i + 1..]) == Paired(items[..i]) + Paired(items[i + 1..])
  {
    PairedAt(items, i);
    PairedAppend(items[..i], items[i + 1..]);
  }

  /** The dataset entry a single item contributes: itself exactly when it
      has points. */
  function PairedOne(it: Item): (r: seq<Item>)
    ensures r == Paired([it])
  {
    assert [it][..0] == [];
    if HasPoints(it) then [it] else []
  }

  /** The dataset splits at any item. */
  lemma {:induction false} PairedAt(items: seq<Item>, i: nat)
    requires i < |items|
    ensures Paired(items) == Paired(items[..i + 1]) + Paired(items[i + 1..])
    ensures Paired(items[..i + 1]) == Paired(items[..i]) + PairedOne(items[i])
  {
    var upto := items[..i + 1];
    assert upto + items[i + 1..] == items;
    PairedAppend(upto, items[i + 1..]);
    assert upto[..i] == items[..i];
  }

  /** The three aligned lists `calibrate` builds. */
  datatype Dataset = Dataset(objpoints: seq<seq<Point3>>, imgpoints: seq<seq<Point2>>, shapes: seq<Option<seq<nat>>>)

  function Collect(items: seq<Item>): (d: Dataset)
    ensures |d.objpoints| == |d.imgpoints| == |d.shapes| == |Paired(items)|
    ensures forall j :: 0 <= j < |d.objpoints| ==>
      && d.objpoints[j] == Paired(items)[j].objpoints.value
      && d.imgpoints[j] == Paired(items)[j].imgpoints.value
      && d.shapes[j] == Paired(items)[j].shape
  {
    var p := Paired(items);
    Dataset(
      seq(|p|, j requires 0 <= j < |p| => p[j].objpoints.value),
      seq(|p|, j requires 0 <= j < |p| => p[j].imgpoints.value),
      seq(|p|, j requires 0 <= j < |p| => p[j].shape))
  }

  /** The loop of `calibrate` that gathers the dataset item by item. */
  method BuildDataset(items: seq<Item>) returns (d: Dataset)
    ensures d == Collect(items)
  {
    var objpoints: seq<seq<Point3>> := [];
    var imgpoints: seq<seq<Point2>> := [];
    var shapes: seq<Option<seq<nat>>> := [];
    var i := 0;
    while i < |items|
      invariant 0 <= i <= |items|
      invariant Dataset(objpoints, imgpoints, shapes) == Collect(items[..i])
    {
      var it := items[i];
      assert items[..i + 1] == items[..i] + [it];
      CollectSnoc(items[..i], it);
      if it.objpoints.Some? && it.imgpoints.Some? {
        objpoints := objpoints + [it.objpoints.value];
        imgpoints := imgpoints + [it.imgpoints.value];
        shapes := shapes + [it.shape];
      }
      i := i + 1;
    }
    assert items[..i] == items;
    d := Dataset(objpoints, imgpoints, shapes);
  }

  /** One more item extends the dataset by its entry exactly when it has points. */
  lemma {:induction false} CollectSnoc(items: seq<Item>, it: Item)
    ensures var before := Collect(items);
      Collect(items + [it]) ==
        if HasPoints(it) then
          Dataset(before.objpoints + [it.objpoints.value], before.imgpoints + [it.imgpoints.value], before.shapes + [it.shape])
        else before
  {
    assert (items + [it])[..|items|] == items;
  }

  /** `len(set(imgshapes)) > 1`. */
  predicate MixedShapes(shapes: seq<Option<seq<nat>>>) {
    |set sh | sh in shapes| > 1
  }

  /** More than one distinct shape means some shape differs from the first. */
  lemma {:induction false} MixedShapesIff(shapes: seq<Option<seq<nat>>>)
    requires |shapes| > 0
    ensures MixedShapes(shapes) <==> exists i :: 0 <= i < |shapes| && shapes[i] != shapes[0]
  {
    var all := set sh | sh in shapes;
    if exists i :: 0 <= i < |shapes| && shapes[i] != shapes[0] {
      var i :| 0 <= i < |shapes| && shapes[i] != shapes[0];
      assert {shapes[0], shapes[i]} <= all;
      assert |{shapes[0], shapes[i]}| == 2;
      SubsetCard({shapes[0], shapes[i]}, all);
    } else {
      assert all == {shapes[0]};
    }
  }

  lemma {:induction false} SubsetCard<T>(a: set<T>, b: set<T>)
    requires a <= b
    ensures |a| <= |b|
  {
    assert b == a + (b - a);
  }

  /** `np.expand_dims(np.asarray(objpoints), -2)`: every object point `p`
      becomes `[p]`, counts and order kept. */
  function WrapPoints(objpoints: seq<seq<Point3>>): (r: seq<seq<seq<Point3>>>)
    ensures |r| == |objpoints|
    ensures forall i :: 0 <= i < |r| ==> |r[i]| == |objpoints[i]|
    ensures forall i, j :: 0 <= i < |r| && 0 <= j < |r[i]| ==> r[i][j] == [objpoints[i][j]]
  {
    seq(|objpoints|, i requires 0 <= i < |objpoints| =>
      seq(|objpoints[i]|, j requires 0 <= j < |objpoints[i]| => [objpoints[i][j]]))
  }

  /** `np.asarray` needs every image to carry the same number of points. */
  predicate Rectangular(objpoints: seq<seq<Point3>>) {
    forall i :: 0 <= i < |objpoints| ==> |objpoints[i]| == |objpoints[0]|
  }

  /** Where `calibrate` gets to before the solver: an early refusal, the
      array conversion failing, or the solver call it makes. */
  datatype Prepared =
    | NoData
    | DifferentShapes
    | NotAnArray
    | CallStandard(standard: StandardInput)
    | CallFisheye(fisheye: FisheyeInput)

  function Prepare(items: seq<Item>, fisheye: bool): (p: Prepared)
    ensures p.NoData? <==> Paired(items) == []
    ensures p.DifferentShapes? <==> Paired(items) != [] && MixedShapes(Collect(items).shapes)
    ensures p.NotAnArray? <==> fisheye && Paired(items) != [] && !MixedShapes(Collect(items).shapes) && !Rectangular(Collect(items).objpoints)
    ensures p.CallFisheye? <==> fisheye && Paired(items) != [] && !MixedShapes(Collect(items).shapes) && Rectangular(Collect(items).objpoints)
    ensures p.CallStandard? <==> !fisheye && Paired(items) != [] && !MixedShapes(Collect(items).shapes)
    ensures p.CallStandard? ==> !fisheye && p.standard == StandardInput(Collect(items).objpoints, Collect(items).imgpoints, Collect(items).shapes[0])
    ensures p.CallFisheye? ==> fisheye && p.fisheye == FisheyeInput(WrapPoints(Collect(items).objpoints), Collect(items).imgpoints, Collect(items).shapes[0])
  {
    var d := Collect(items);
    if |d.objpoints| == 0 || |d.imgpoints| == 0 then NoData
    else if MixedShapes(d.shapes) then DifferentShapes
    else if fisheye then
      if Rectangular(d.objpoints) then CallFisheye(FisheyeInput(WrapPoints(d.objpoints), d.imgpoints, d.shapes[0]))
      else NotAnArray
    else CallStandard(StandardInput(d.objpoints, d.imgpoints, d.shapes[0]))
  }

  /** Whenever a solver is reached, every image has the shape passed as the
      size, and every image with points contributed one entry. */
  lemma {:induction false} SolverSeesOneShape(items: seq<Item>, fisheye: bool)
    requires Prepare(items, fisheye).CallStandard? || Prepare(items, fisheye).CallFisheye?
    ensures var d := Collect(items);
      var size := if fisheye then Prepare(items, fisheye).fisheye.size else Prepare(items, fisheye).standard.size;
      forall j :: 0 <= j < |d.shapes| ==> d.shapes[j] == size
  {
    MixedShapesIff(Collect(items).shapes);
  }

  // ---------------------------------------------------------------------
  // Calibration and results

  /** How `calibrate` ended: refused with the message the error dialog shows,
      an exception escaped, or the results were shown. */
  datatype Outcome = Refused(message: string) | Raised(exception: string) | Calibrated

  /** `clear_results`: every result field, the save path and the results
      label are reset. */
  function ClearResults(s: Session): (r: Session)
    ensures NoResults(r)
    ensures r.items == s.items && r.imageWidth == s.imageWidth
    ensures Valid(s) ==> Valid(r)
  {
    s.(fisheye := None, rmsError := None, intrinsicMatrix := None, distortionCoeffs := None,
       rotationVecs := None, translationVecs := None, savePath := None, resultsText := "")
  }

  /** The solver's result for a prepared call. */
  function Solve(p: Prepared, solvers: Solvers): Result<Solution>
    requires p.CallStandard? || p.CallFisheye?
  {
    if p.CallStandard? then solvers.standard(p.standard) else solvers.fisheye(p.fisheye)
  }

  /** `calibrate`: record the model, build the dataset, refuse an empty or
      mixed-shape one after clearing the results, otherwise run the model's
      solver, store its five results and write the summary. */
  function Calibrate(s: Session, fisheye: bool, solvers: Solvers, f: CalibrateDock.Formats): (r: (Session, Outcome))
    ensures r.0.items == s.items && r.0.imageWidth == s.imageWidth
    ensures r.1.Refused? <==> Prepare(s.items, fisheye).NoData? || Prepare(s.items, fisheye).DifferentShapes?
    ensures Prepare(s.items, fisheye).NoData? ==> r == (ClearResults(s), Refused("No calibration data available!"))
    ensures Prepare(s.items, fisheye).DifferentShapes? ==> r == (ClearResults(s), Refused("Image with different shape was used!"))
    ensures !r.1.Refused? ==> r.0.fisheye == Some(fisheye)
    ensures var p := Prepare(s.items, fisheye);
      r.1.Calibrated? <==>
        && (p.CallStandard? || p.CallFisheye?)
        && Solve(p, solvers).Ok?
        && var sol := Solve(p, solvers).value;
        CalibrateDock.SetResults(sol.rms, sol.k, sol.d, fisheye, f).Ok?
    ensures Prepare(s.items, fisheye).NotAnArray? ==> r == (s.(fisheye := Some(fisheye)), Raised("ValueError"))
    ensures var p := Prepare(s.items, fisheye);
      (p.CallStandard? || p.CallFisheye?) ==> r == Store(s.(fisheye := Some(fisheye)), Solve(p, solvers), fisheye, f)
    ensures var p := Prepare(s.items, fisheye);
      (p.CallStandard? || p.CallFisheye?) && Solve(p, solvers).Raise? ==>
        r == (s.(fisheye := Some(fisheye)), Raised(Solve(p, solvers).exception))
    ensures r.1.Calibrated? ==>
      var p := Prepare(s.items, fisheye);
      && (p.CallStandard? || p.CallFisheye?)
      && Solve(p, solvers).Ok?
      && var sol := Solve(p, solvers).value;
      && r.0.fisheye == Some(fisheye)
      && r.0.rmsError == Some(sol.rms) && r.0.intrinsicMatrix == Some(sol.k) && r.0.distortionCoeffs == Some(sol.d)
      && r.0.rotationVecs == Some(sol.rotations) && r.0.translationVecs == Some(sol.translations)
      && CalibrateDock.SetResults(sol.rms, sol.k, sol.d, fisheye, f) == Ok(r.0.resultsText)
    ensures Valid(s) ==> Valid(r.0)
  {
    var chosen := s.(fisheye := Some(fisheye));
    var p := Prepare(s.items, fisheye);
    match p
    case NoData => (ClearResults(chosen), Refused("No calibration data available!"))
    case DifferentShapes => (ClearResults(chosen), Refused("Image with different shape was used!"))
    case NotAnArray => (chosen, Raised("ValueError"))
    case CallStandard(input) => Store(chosen, Solve(p, solvers), fisheye, f)
    case CallFisheye(input) => Store(chosen, Solve(p, solvers), fisheye, f)
  }

  /** Assign the solver's tuple and show it; a solver error escapes before
      any field is assigned. */
  function Store(s: Session, solved: Result<Solution>, fisheye: bool, f: CalibrateDock.Formats): (r: (Session, Outcome))
    ensures r.0.items == s.items && r.0.imageWidth == s.imageWidth && r.0.fisheye == s.fisheye
    ensures !r.1.Refused?
    ensures solved.Raise? ==> r == (s, Raised(solved.exception))
    ensures solved.Ok? ==> (r.0.(resultsText := s.resultsText) ==
      s.(rmsError := Some(solved.value.rms), intrinsicMatrix := Some(solved.value.k),
         distortionCoeffs := Some(solved.value.d), rotationVecs := Some(solved.value.rotations),
         translationVecs := Some(solved.value.translations)))
    ensures solved.Ok? ==>
      var shown := CalibrateDock.SetResults(solved.value.rms, solved.value.k, solved.value.d, fisheye, f);
      && (r.1.Calibrated? <==> shown.Ok?)
      && (shown.Raise? ==> r.1 == Raised(shown.exception) && r.0.resultsText == s.resultsText)
    ensures r.1.Calibrated? ==> (solved.Ok?
      && r.0.rmsError == Some(solved.value.rms) && r.0.intrinsicMatrix == Some(solved.value.k)
      && r.0.distortionCoeffs == Some(solved.value.d)
      && r.0.rotationVecs == Some(solved.value.rotations) && r.0.translationVecs == Some(solved.value.translations)
      && CalibrateDock.SetResults(solved.value.rms, solved.value.k, solved.value.d, fisheye, f) == Ok(r.0.resultsText))
  {
    match solved
    case Raise(e) => (s, Raised(e))
    case Ok(sol) =>
      var stored := s.(rmsError := Some(sol.rms), intrinsicMatrix := Some(sol.k), distortionCoeffs := Some(sol.d),
                       rotationVecs := Some(sol.rotations), translationVecs := Some(sol.translations));
      match CalibrateDock.SetResults(sol.rms, sol.k, sol.d, fisheye, f)
      case Raise(e) => (stored, Raised(e))
      case Ok(text) => (stored.(resultsText := text), Calibrated)
  }

  /** An early refusal never consults a solver: any two solvers give the
      same session and outcome. */
  lemma {:induction false} RefusalIgnoresSolvers(s: Session, fisheye: bool, one: Solvers, other: Solvers, f: CalibrateDock.Formats)
    requires Calibrate(s, fisheye, one, f).1.Refused?
    ensures Calibrate(s, fisheye, one, f) == Calibrate(s, fisheye, other, f)
    ensures NoResults(Calibrate(s, fisheye, one, f).0)
  {
  }

  /** As written, a solve that raises leaves the previous results in place
      under the newly chosen model: after a standard calibration, a failing
      fisheye one gives a complete record whose flag says fisheye while its
      coefficients are the standard model's. */
  lemma {:induction false} FailedSolveKeepsStaleResults(s: Session, solvers: Solvers, f: CalibrateDock.Formats)
    requires AllResultsSet(s) && s.fisheye == Some(false)
    requires Prepare(s.items, true).CallFisheye?
    requires solvers.fisheye(Prepare(s.items, true).fisheye).Raise?
    ensures var r := Calibrate(s, true, solvers, f);
      && r.1.Raised?
      && AllResultsSet(r.0)
      && Record(r.0)["fisheye"] == FlagField(true)
      && Record(r.0)["D"] == MatrixField(s.distortionCoeffs.value)
  {
  }

  /** `calibrate` as evidently intended: every failure, refused or raised,
      clears the results, so a complete set of results always comes from a
      calibration that finished, with the model it used. */
  function CalibrateChecked(s: Session, fisheye: bool, solvers: Solvers, f: CalibrateDock.Formats): (r: (Session, Outcome))
    ensures r.1 == Calibrate(s, fisheye, solvers, f).1
    ensures r.1.Calibrated? ==> r.0 == Calibrate(s, fisheye, solvers, f).0
    ensures !r.1.Calibrated? ==> r.0 == ClearResults(s) && NoResults(r.0)
    ensures AllResultsSet(r.0) ==> r.1.Calibrated? && r.0.fisheye == Some(fisheye)
    ensures Valid(s) ==> Valid(r.0)
  {
    var (after, outcome) := Calibrate(s, fisheye, solvers, f);
    if outcome.Calibrated? then (after, outcome) else (ClearResults(s), outcome)
  }

  /** With the correction, the failing solve of `FailedSolveKeepsStaleResults`
      leaves nothing that could be saved. */
  lemma {:induction false} CheckedFailedSolveClears(s: Session, solvers: Solvers, f: CalibrateDock.Formats)
    requires AllResultsSet(s) && s.fisheye == Some(false)
    requires Prepare(s.items, true).CallFisheye?
    requires solvers.fisheye(Prepare(s.items, true).fisheye).Raise?
    ensures var r := CalibrateChecked(s, true, solvers, f);
      r.1.Raised? && NoResults(r.0) && SaveCalibration(r.0, "calib.json").1.refused
  {
  }

  // ---------------------------------------------------------------------
  // Saving

  /** A value in the saved record. */
  datatype Field = MatrixField(matrix: Matrix) | FlagField(flag: bool)

  /** The file formats `save_calibration` writes. */
  datatype Format = Json | Npz

  /** `pathlib.PurePath.suffix` of the path's last component. */
  function Suffix(path: string): (r: string)
    ensures r == "" || (|r| >= 2 && r[0] == '.')
    ensures var name := LastComponent(path);
      r != "" ==> exists i :: 0 < i < |name| - 1 && name[i] == '.' && '.' !in name[i + 1..] && r == name[i..]
    ensures var name := LastComponent(path);
      (exists i :: 0 < i < |name| - 1 && name[i] == '.' && '.' !in name[i + 1..]) ==> r != ""
  {
    var name := LastComponent(path);
    LastDotIsTheLastDot(name);
    match LastDot(name)
    case Some(i) => if 0 < i < |name| - 1 then name[i..] else ""
    case None => ""
  }

  /** Any dot with no dot after it is the one `LastDot` finds. */
  lemma {:induction false} LastDotIsTheLastDot(name: string)
    ensures forall j :: 0 <= j < |name| && name[j] == '.' && '.' !in name[j + 1..] ==> LastDot(name) == Some(j)
  {
    forall j | 0 <= j < |name| && name[j] == '.' && '.' !in name[j + 1..]
      ensures LastDot(name) == Some(j)
    {
      assert name[j] in name;
    }
  }

  /** The part of the path after its last `/`. */
  function LastComponent(path: string): (r: string)
    ensures '/' !in r
    ensures |r| <= |path| && r == path[|path| - |r|..]
    ensures |r| < |path| ==> path[|path| - |r| - 1] == '/'
  {
    if |path| == 0 then ""
    else if path[|path| - 1] == '/' then ""
    else LastComponent(path[..|path| - 1]) + [path[|path| - 1]]
  }

  function LastDot(name: string): (r: Option<nat>)
    ensures r.Some? ==> r.value < |name| && name[r.value] == '.' && '.' !in name[r.value + 1..]
    ensures r.None? ==> '.' !in name
  {
    if |name| == 0 then None
    else if name[|name| - 1] == '.' then Some(|name| - 1)
    else
      match LastDot(name[..|name| - 1])
      case None => None
      case Some(i) =>
        assert name[i + 1..] == name[..|name| - 1][i + 1..] + [name[|name| - 1]];
        Some(i)
  }

  /** The record a save writes: the camera matrix, the distortion
      coefficients and the model flag. */
  function Record(s: Session): (m: map<string, Field>)
    requires AllResultsSet(s)
    ensures m.Keys == {"K", "D", "fisheye"}
  {
    map["K" := MatrixField(s.intrinsicMatrix.value), "D" := MatrixField(s.distortionCoeffs.value),
        "fisheye" := FlagField(s.fisheye.value)]
  }

  /** Reading a saved record back: a missing key or a value of the wrong kind fails. */
  function ReadRecord(m: map<string, Field>): Option<(Matrix, Matrix, bool)> {
    if "K" in m && "D" in m && "fisheye" in m
       && m["K"].MatrixField? && m["D"].MatrixField? && m["fisheye"].FlagField? then
      Some((m["K"].matrix, m["D"].matrix, m["fisheye"].flag))
    else None
  }

  /** The record gives back exactly the session's matrix, coefficients and model. */
  lemma {:induction false} RecordRoundTrip(s: Session)
    requires AllResultsSet(s)
    ensures ReadRecord(Record(s)) == Some((s.intrinsicMatrix.value, s.distortionCoeffs.value, s.fisheye.value))
  {
  }

  /** What a save did: the file written (format and record), if any, and the
      path `calibration_saved` announced, if any. */
  datatype Saved = Saved(written: Option<(Format, map<string, Field>)>, emitted: Option<string>, refused: bool)

  /** `save_calibration` as written: refuse unless every result is set;
      otherwise remember the chosen path, write JSON or npz by its suffix, and
      announce the path whatever the suffix. `chosen` is the path as `Path`
      spells it. */
  function SaveCalibration(s: Session, chosen: string): (r: (Session, Saved))
    ensures !AllResultsSet(s) ==> r.0 == s && r.1 == Saved(None, None, true)
    ensures AllResultsSet(s) ==> !r.1.refused && r.0 == s.(savePath := Some(chosen))
    ensures AllResultsSet(s) ==> r.1.emitted == Some(chosen)
    ensures r.1.written.Some? <==> AllResultsSet(s) && Suffix(chosen) in {".json", ".npz"}
    ensures r.1.written.Some? ==> r.1.written.value.1 == Record(s)
    ensures r.1.written.Some? ==> (r.1.written.value.0 == Json <==> Suffix(chosen) == ".json")
  {
    if !AllResultsSet(s) then (s, Saved(None, None, true))
    else
      var suffix := Suffix(chosen);
      var written :=
        if suffix == ".json" then Some((Json, Record(s)))
        else if suffix == ".npz" then Some((Npz, Record(s)))
        else None;
      (s.(savePath := Some(chosen)), Saved(written, Some(chosen), false))
  }

  /** After `clear_results` a save always refuses: nothing written, nothing
      announced. */
  lemma {:induction false} SaveAfterClearRefuses(s: Session, chosen: string)
    ensures SaveCalibration(ClearResults(s), chosen) == (ClearResults(s), Saved(None, None, true))
  {
  }

  /** As written, a path without a JSON or npz suffix is announced as saved
      though nothing was written. A cancelled dialog is such a path: its empty
      local file name becomes `Path("")`, which is `.`. */
  lemma {:induction false} SavedAnnouncedWithoutFile(s: Session)
    requires AllResultsSet(s)
    ensures var r := SaveCalibration(s, ".");
      r.1.written.None? && r.1.emitted == Some(".")
  {
  }

  /** `save_calibration` as evidently intended: `calibration_saved` is only
      emitted for a file that was written. */
  function SaveCalibrationChecked(s: Session, chosen: string): (r: (Session, Saved))
    ensures r.1.emitted.Some? <==> r.1.written.Some?
    ensures r.1.written == SaveCalibration(s, chosen).1.written
    ensures r.1.emitted.Some? ==> r.1.emitted == Some(chosen)
    ensures r.0 == SaveCalibration(s, chosen).0
  {
    var (after, saved) := SaveCalibration(s, chosen);
    (after, saved.(emitted := if saved.written.Some? then Some(chosen) else None))
  }
}

=== FILE: opencv_camera.dfy ===
/** Camera enumeration (funcs/opencv_camera.py). Whether
    `cv.VideoCapture(i).isOpened()` succeeds is the oracle `opens`. */
module OpencvCamera {

  /** The probe from `index` on: every index below `maxNo` that opens, up to
      the first one that does not. */
  function Probe(opens: nat -> bool, index: nat, maxNo: int): (r: seq<nat>)
    ensures forall k :: 0 <= k < |r| ==> r[k] == index + k && opens(r[k])
    ensures index + |r| <= maxNo || r == []
    decreases maxNo - index
  {
    if index >= maxNo || !opens(index) then [] else [index] + Probe(opens, index + 1, maxNo)
  }

  /** The number of leading device indices below `maxNo` that open. */
  function OpenPrefix(opens: nat -> bool, index: nat, maxNo: int): (k: nat)
    ensures index <= k
    ensures maxNo <= index ==> k == index
    ensures index < maxNo ==> k <= maxNo
    ensures forall i :: index <= i < k ==> opens(i)
    ensures k < maxNo ==> !opens(k)
    decreases maxNo - index
  {
    if index >= maxNo || !opens(index) then index else OpenPrefix(opens, index + 1, maxNo)
  }

  /** The probe yields exactly the indices `index, ..., k - 1`, `k` being the
      first that fails to open or `maxNo`. */
  lemma {:induction false} ProbeIsRange(opens: nat -> bool, index: nat, maxNo: int)
    ensures var r := Probe(opens, index, maxNo);
      && |r| == OpenPrefix(opens, index, maxNo) - index
      && forall i :: 0 <= i < |r| ==> r[i] == index + i
    decreases maxNo - index
  {
    if index < maxNo && opens(index) {
      ProbeIsRange(opens, index + 1, maxNo);
    }
  }

  /** What the probe from 0 yields: `[0, 1, ..., k - 1]`, every index
      opened, at most `maxNo` long, and stopped by a failing index when it
      is shorter than `maxNo`. */
  lemma {:induction false} ProbeFromZero(opens: nat -> bool, maxNo: int)
    ensures var r := Probe(opens, 0, maxNo);
      && (maxNo <= 0 ==> r == [])
      && (|r| <= maxNo || r == [])
      && (forall i :: 0 <= i < |r| ==> r[i] == i && opens(i))
      && (|r| < maxNo ==> !opens(|r|))
  {
    ProbeIsRange(opens, 0, maxNo);
  }

  /** `get_cameras`: probe device indices `0, 1, ...` in increasing order (the
      `enumerate` position, so `reversed` plays no part) and stop at the first
      that fails to open. */
  method GetCameras(maxNo: int, opens: nat -> bool) returns (cameras: seq<nat>)
    ensures cameras == Probe(opens, 0, maxNo)
    ensures maxNo <= 0 ==> cameras == []
    ensures |cameras| <= maxNo || cameras == []
    ensures forall i :: 0 <= i < |cameras| ==> cameras[i] == i && opens(i)
    ensures |cameras| < maxNo ==> !opens(|cameras|)
    ensures forall i, j :: 0 <= i < j < |cameras| ==> cameras[i] < cameras[j]
  {
    cameras := [];
    var index := 0;
    while index < maxNo
      invariant index == |cameras|
      invariant index <= maxNo || index == 0
      invariant forall i :: 0 <= i < index ==> cameras[i] == i && opens(i)
      decreases maxNo - index
    {
      if !opens(index) {
        break;
      }
      cameras := cameras + [index];
      index := index + 1;
    }
    ProbeFromZero(opens, maxNo);
    var r := Probe(opens, 0, maxNo);
    assert |r| == index;
    assert cameras == r;
  }
}
